=== FILE: README.md ===
# Program editor panel: a verified model

This project models the bookkeeping of the flow-server program editor panel
(`static/flow/views/program-editor-panel.js`). That is the part of the
editor that is not drawing. It covers:

- the undo history of program snapshots (`storeProgramState`, `undoChange`);
- the autosave coordinator (`autoSaveProgram`, `saveComplete`): the flags
  `saving`, `saveAgain` and `lastChangeMoveBlock`;
- the name registry of sensor and timer blocks (`updateNameHash`,
  `getUniqueName`);
- the connection rule (`pinMouseUp`, `connectionClick`);
- the pin reconciliation of the data-storage block (`updateDataStoragePins`),
  with its `sequence_names` labels;
- the numeric branch of `updateParamFromEntryField`;
- the one-data-storage-block guard of `addDataStorageBlock`;
- the readings and nulling of `handleSensorData`;
- the placement offsets `newBlockXOffset` and `newBlockYOffset`;
- the default program name `createDateTimeName`;
- the drag clamp of `mouseMove` and the hit test of `blockMouseDown`;
- the handlers composed into one panel (module `Editor`): each action edits
  the diagram, reconciles it, records it in the history and asks for a save.

Modules, one file each:

| module | file | content |
|---|---|---|
| `Wrappers` | wrappers.dfy | `Option` |
| `Decimal` | decimal.dfy | decimal text of integers (`name + count` in JavaScript) and its parse |
| `History` | history.dfy | the bounded snapshot history, capacity 11 |
| `AutoSave` | autosave.dfy | the save flags, move coalescing, and a trace model of the network save |
| `Graph` | graph.dfy | blocks, pins, connections (`sourcePin`) |
| `Connections` | connections.dfy | `pinMouseUp` and `connectionClick` |
| `DataStorage` | datastorage.dfy | `updateDataStoragePins` |
| `StorageProofs` | storageproofs.dfy | the data-storage block keeps its shape through connect and disconnect |
| `Names` | names.dfy | `updateNameHash`, `getUniqueName` |
| `Sensors` | sensors.dfy | `handleSensorData` |
| `Params` | params.dfy | numeric parameter entry and `parseFloat` |
| `Layout` | layout.dfy | placement offsets, drag clamp, hit test |
| `DateName` | datename.dfy | `formatDatePart`, `createDateTimeName` |
| `Editor` | editor.dfy | the handlers on one panel state |

Modelling conventions:

- JavaScript object references become indices. A pin is `PinRef(block, pin)`.
  The registry maps a name to the index of its block.
- A handler that throws a `TypeError` is `None`. This happens on a release
  with no pressed pin, or on reading `pins[connected - 1].sourcePin.block`
  when that pin is missing or free.
- `sequence_names` is a map from source block id to label. Its keys are
  block ids, which are integers, and `Object.keys` lists integer keys in
  ascending order. So "the first key" is the smallest key.
- A snapshot is generic in `History` and `AutoSave`. The `Editor` module
  stores the diagram itself, taking `diagramToSpec` and `specToDiagram` as
  inverse.
- Writing `arr[length - 1]` on an empty array creates no element. So an
  overwriting store on an empty history leaves it empty.
- The clock, the network save and the page offsets are parameters:
  `DateTime` parts, `Completed` events, `holderX`/`holderY`.
- `DEVICE_BLOCKS` is the parameter `deviceTypes`.

## Model

| member | source | states |
|---|---|---|
| History.Store | static/flow/views/program-editor-panel.js:133-144 | an overwrite replaces the last entry and keeps the length; otherwise the snapshot is appended; on overflow exactly the oldest entry is dropped and the new snapshot is last; a history of at most 11 stays at most 11 |
| History.Undo | static/flow/views/program-editor-panel.js:149-164 | nothing to undo below two entries; otherwise the history loses exactly its last entry and the state restored is the second-to-last snapshot, which becomes the last entry |
| History.UndoAfterStore | static/flow/views/program-editor-panel.js:133-164 | undo is the inverse of an append that evicted nothing: the old history comes back and its last entry is restored |
| History.UndoDepthIsLengthMinusOne | static/flow/views/program-editor-panel.js:31 | from n stored entries exactly n - 1 undos succeed, so at most 10 from a bounded history |
| History.StoreAllKeepsNewest | static/flow/views/program-editor-panel.js:133-144 | after any run of appends the history is the newest 11 entries of old history followed by the new snapshots (all of them when there are at most 11) |
| History.StoreAllForgetsOld | static/flow/views/program-editor-panel.js:133-144 | after at least 11 appends the history holds exactly the last 11 snapshots, whatever it held before |
| AutoSave.RequestSave | static/flow/views/program-editor-panel.js:196-201 | a request while a save is in flight only sets saveAgain and starts nothing; otherwise it sets saving and starts exactly one save; history and move flag untouched |
| AutoSave.AutoSaveProgram | static/flow/views/program-editor-panel.js:186-202 | the history entry is an overwrite exactly when this change and the previous recorded change are moves; the move flag becomes moveBlock; with saveState false neither history nor move flag changes; a save starts iff none was in flight |
| AutoSave.SaveComplete | static/flow/views/program-editor-panel.js:207-214 | saving is cleared; exactly one more save starts iff saveAgain was set, which is then cleared; no snapshot is recorded |
| AutoSave.UndoChange | static/flow/views/program-editor-panel.js:149-178 | below two entries nothing changes and no save starts; otherwise the second-to-last snapshot is restored, the history shrinks by one, no snapshot is recorded, the move flag is false and a save is requested |
| AutoSave.LoadProgram | static/flow/views/program-editor-panel.js:83-125 | the history restarts with the loaded program as its only entry, so there is nothing to undo; the move flag is false; the save flags are kept |
| AutoSave.MoveRunAddsOneEntry | static/flow/views/program-editor-panel.js:186-195 | k >= 1 consecutive moves after a non-move change add exactly one history entry, holding the last move |
| AutoSave.StoreOverwritesLast | static/flow/views/program-editor-panel.js:133-144 | overwriting right after an append equals appending the newer snapshot |
| AutoSave.RunKeepsSingleFlight | static/flow/views/program-editor-panel.js:196-214 | along every trace of requests and completions at most one save is in flight, saving is set exactly while one is, and a repeat is only pending behind an in-flight save |
| AutoSave.BurstStartsOneSave | static/flow/views/program-editor-panel.js:196-201 | a burst of requests from idle starts one save, and a repeat is pending iff the burst had two or more requests |
| AutoSave.PendingBurstStartsNothing | static/flow/views/program-editor-panel.js:196-199 | requests while a save is in flight start no save and leave a repeat pending |
| AutoSave.ThreeRequestsTwoSaves | static/flow/views/program-editor-panel.js:196-214 | three requests before the first completion give two saves in total, after which nothing is in flight |
| Names.UpdateNameHash | static/flow/views/program-editor-panel.js:940-948 | the keys are exactly the names of device and timer blocks; each key maps to the last such block carrying it |
| Names.GetUniqueName | static/flow/views/program-editor-panel.js:967-977 | the result is not a key of the registry; it is the name itself when free, else the name, a space and the smallest counter k >= 2 that is not a key |
| Names.UniqueNameIsUnused | static/flow/views/program-editor-panel.js:940-977 | against the registry rebuilt from the blocks, the name handed out is carried by no device or timer block |
| Decimal.FirstFreeCounter | static/flow/views/program-editor-panel.js:972-974 | the counter search ends at the smallest counter from the start value whose name is not taken |
| Decimal.ParseNatToString | static/flow/views/program-editor-panel.js:976 | the decimal text appended to a name parses back to the counter |
| Decimal.NumberedInjective | static/flow/views/program-editor-panel.js:976 | different counters give different names |
| Graph.SetSource | static/flow/views/program-editor-panel.js:884 | the pin gets the given source; nothing else in the diagram changes |
| Graph.SetSourceKeepsWellLinked | static/flow/views/program-editor-panel.js:881-884 | giving an input an output as source, or clearing it, keeps every connection running from an output into an input |
| Connections.PinMouseUp | static/flow/views/program-editor-panel.js:872-879 | the corrected definition of the duplicate guard of the Findings entry: a second connection from the output-side pin into a data-storage block is refused whichever pin was pressed first; the rest is the source's rule (no pressed pin throws, pins facing the same way do nothing, otherwise the output-side pin becomes the input-side pin's source exactly when that input had none) |
| Connections.PinMouseUpAsWritten | static/flow/views/program-editor-panel.js:870-879 | the same rule with the duplicate guard as the source writes it: the block of the released pin, with the pressed pin as candidate source |
| Connections.GuardsAgreeOnInputRelease | static/flow/views/program-editor-panel.js:870-879 | released over an input pin, the guard as written and the corrected guard give the same result |
| Connections.ConnectIfFree | static/flow/views/program-editor-panel.js:881-886 | the destination gets the source iff it had none; otherwise the diagram is unchanged |
| Connections.ConnectionClick | static/flow/views/program-editor-panel.js:917-926 | the destination loses its source and nothing else changes |
| Connections.PinMouseUpKeepsWellLinked | static/flow/views/program-editor-panel.js:870-886 | a connection made runs from an output into an input |
| Connections.ConnectionClickKeepsWellLinked | static/flow/views/program-editor-panel.js:917-920 | clearing a connection keeps the diagram well linked |
| Connections.PinMouseUpKeepsSourcesDistinct | static/flow/views/program-editor-panel.js:872-879 | with the guard on the destination, no data-storage block ever gets two pins fed by the same output pin |
| Connections.DuplicateGuardBypassed | static/flow/views/program-editor-panel.js:872-879 | a concrete diagram where the guard as written lets a second connection from one output into the data-storage block through, and the corrected guard refuses it |
| DataStorage.ConnectedCountUpdate | static/flow/views/program-editor-panel.js:1456-1461 | changing one pin changes the count by that pin's change alone |
| DataStorage.RemoveFirstFree | static/flow/views/program-editor-panel.js:1508-1514 | when some pin has no source, exactly one pin is removed: the first pin without a source, every pin before it being connected; when every pin is connected the pins are unchanged |
| DataStorage.FirstFreeIndex | static/flow/views/program-editor-panel.js:1508-1514 | the index of the first pin without a source: every pin before it is connected |
| DataStorage.FreshLabel | static/flow/views/program-editor-panel.js:1539-1553 | the label is not among the existing labels; it is the source name when free, else the name followed by the smallest counter k >= 1, with no space, whose label is free |
| DataStorage.MinKey | static/flow/views/program-editor-panel.js:1558-1561 | the first key in key order is the smallest key |
| DataStorage.RemoveStaleLabel | static/flow/views/program-editor-panel.js:1558-1576 | when every key is a live source nothing is removed; otherwise exactly the smallest key that no connected pin's source block has is removed |
| DataStorage.ReconcileBlock | static/flow/views/program-editor-panel.js:1462-1610 | an unbalanced block's input count becomes connected + 1; one free pin is appended when the count was too low and the first free pin removed when too high; adding labels the new source with a fresh label, removing drops the stale label; the height follows the pin count; the handler throws exactly when adding a label reads a missing or free pin, when removing leaves fewer than connected + 1 pins for the labelling loop to read, or when a block without sequence_names has a fed pin among its first connected + 1 while no earlier block of the pass filled the key list |
| DataStorage.ReconcileFrom | static/flow/views/program-editor-panel.js:1452-1464 | the pass visits blocks in order and keeps the length, every non-data-storage block and the blocks already passed; every connection still names a block; the key list filled by a block with sequence_names stays visible to later blocks of the pass |
| DataStorage.UpdateDataStoragePins | static/flow/views/program-editor-panel.js:1451-1634 | the block count is kept, and a diagram without a data-storage block is left as it is |
| DataStorage.ReconcileKeepsValues | static/flow/views/program-editor-panel.js:1451-1634 | every block keeps its type, name and value |
| DataStorage.InvariantBalanced | static/flow/views/program-editor-panel.js:1462-1463 | a block in shape is balanced, so the pass stops at it and changes nothing |
| StorageProofs.PassReconcilesOnly | static/flow/views/program-editor-panel.js:1452-1474 | with one data-storage block, the pass reconciles exactly that block, or throws exactly when reconciling it throws |
| StorageProofs.OverCountedBlockThrows | static/flow/views/program-editor-panel.js:1594-1605 | a storage block counting 3 inputs with one fed and one free pin makes the pass throw: after the free pin is removed the labelling loop reads a missing second pin |
| StorageProofs.UnlabelledBlockThrows | static/flow/views/program-editor-panel.js:1594-1610 | a lone storage block without sequence_names whose pin is fed makes the pass throw: the labelling loop scans a key list that was never filled |
| StorageProofs.SkipToStorage | static/flow/views/program-editor-panel.js:1452-1453 | blocks of other types are skipped |
| StorageProofs.ConnectFreePinKeepsInvariant | static/flow/views/program-editor-panel.js:1468-1556 | connecting an output to the block's free pin and reconciling gives one more pin, keeps the block in shape (declared inputs = pins, connected pins first, one free pin last, one distinct label per source block), keeps it the only data-storage block, and labels the new source with a fresh label; no other block changes |
| StorageProofs.ConnectPass | static/flow/views/program-editor-panel.js:1468-1556 | after that connect the pass appends one free pin, declares one more input and adds the fresh label for the source block |
| StorageProofs.ConnectShape | static/flow/views/program-editor-panel.js:1536-1555 | that new block is in shape |
| StorageProofs.DisconnectKeepsInvariant | static/flow/views/program-editor-panel.js:1506-1577 | clicking away one connection of the block and reconciling removes one pin, keeps the block in shape and the only data-storage block, and drops the departed source's label unless another pin still reads from that block |
| StorageProofs.DisconnectPass | static/flow/views/program-editor-panel.js:1506-1577 | after that disconnect the pass removes the freed pin, declares one input fewer and runs the stale-label removal |
| StorageProofs.DisconnectShape | static/flow/views/program-editor-panel.js:1558-1576 | that new block is in shape and its label map is the old one, less the departed source unless it is still live |
| StorageProofs.StaleLabelIsGone | static/flow/views/program-editor-panel.js:1558-1576 | when only one source can be stale, exactly its key is removed and the keys are the live sources |
| StorageProofs.DropPin | static/flow/views/program-editor-panel.js:1508-1514 | removing a freed connected pin keeps connected pins first and one free pin last, and loses at most that pin's source id |
| StorageProofs.SourceIdsConnectLast | static/flow/views/program-editor-panel.js:1476-1478 | connecting the free pin and appending a new one adds exactly the new source's id |
| StorageProofs.WellLinkedAfterReconcile | static/flow/views/program-editor-panel.js:1476-1514 | adding a free pin or removing one keeps the diagram well linked |
| Sensors.ApplyReadings | static/flow/views/program-editor-panel.js:1385-1396 | only values change; a block no reading targets is unchanged; a targeted block holds the value of the last reading that targets it |
| Sensors.NullAbsent | static/flow/views/program-editor-panel.js:1405-1413 | each device block (timers excluded) whose name was not received gets null; every other block is unchanged |
| Sensors.ReceivedNames | static/flow/views/program-editor-panel.js:1395 | the received names are exactly the names carried by the readings |
| Sensors.HandleSensorData | static/flow/views/program-editor-panel.js:1381-1413 | nothing happens without data; otherwise only values change, and every device block whose name was not received holds null |
| Sensors.EmptyPushClearsDevices | static/flow/views/program-editor-panel.js:1383-1413 | an empty list of readings clears every device block and leaves the rest unchanged |
| Sensors.ReadingsReachLastNamed | static/flow/views/program-editor-panel.js:940-948 | with the registry rebuilt from the diagram, the last block of a name takes the value of the last reading of that name |
| Sensors.ShadowedBlockKeepsValue | static/flow/views/program-editor-panel.js:1390-1409 | a device or timer block whose name a later registered block also carries is never updated, and once its name is received it is not cleared either |
| Sensors.LastNamedUnique | static/flow/views/program-editor-panel.js:944-946 | a name has at most one last registered block |
| Params.KeepNumeric | static/flow/views/program-editor-panel.js:1349 | the result holds only digits and dots, is no longer than the input, and is the input itself when that holds only digits and dots (so stripping twice equals stripping once) |
| Params.KeepNumericCounts | static/flow/views/program-editor-panel.js:1349 | every digit and dot is kept as often as it occurs, and nothing else is kept |
| Params.KeepNumericAppend | static/flow/views/program-editor-panel.js:1349 | stripping distributes over concatenation, so the kept characters keep their order |
| Params.ParseFloat | static/flow/views/program-editor-panel.js:1352 | NaN exactly when the text starts neither with a digit nor with a dot and a digit; a number is never negative |
| Params.ParseFloatOfNat | static/flow/views/program-editor-panel.js:1352 | the decimal text of a whole number parses to that number |
| Params.ParseFloatOfDecimal | static/flow/views/program-editor-panel.js:1352 | digits, a dot and digits parse to their decimal value, and anything from a second dot on is ignored |
| Params.UpdateNumericParam | static/flow/views/program-editor-panel.js:1347-1362 | empty stripped text keeps the value, and the field shows the default if focus was lost; unparsable text sets value and field to the default; otherwise the value is the parsed number and the field shows the stripped text |
| Params.WholeNumberEntry | static/flow/views/program-editor-panel.js:1347-1358 | typing a whole number amid characters that are not digits or dots sets the parameter to that number |
| Params.ReentryIsStable | static/flow/views/program-editor-panel.js:1347-1362 | entering again what the field shows changes nothing |
| Layout.NewBlockXOffset | static/flow/views/program-editor-panel.js:981-991 | the x offset is a multiple of 5, at most 835 |
| Layout.NewBlockYOffset | static/flow/views/program-editor-panel.js:994-1002 | the y offset is a multiple of 35, at most 595 |
| Layout.OffsetsRepeat | static/flow/views/program-editor-panel.js:981-1002 | the placement repeats after 72 blocks |
| Layout.OffsetsDistinct | static/flow/views/program-editor-panel.js:981-1002 | within one cycle of 72 no two block counts get the same offset |
| Layout.DragPosition | static/flow/views/program-editor-panel.js:750-762 | the block goes to pointer plus grab offset relative to the canvas, clamped at 0 on each axis |
| Layout.DragFollowsPointer | static/flow/views/program-editor-panel.js:750-762 | while unclamped the block moves by exactly the pointer's displacement |
| Layout.ToggleRunProgramMode | static/flow/views/program-editor-panel.js:1785-1795 | the run mode is recorded on the object property; the closure variable keeps its value |
| Layout.ToggleAll | static/flow/views/program-editor-panel.js:1785-1795 | after a series of switches the property holds the last mode and the closure variable is unchanged |
| Layout.MoveBlockAsWritten | static/flow/views/program-editor-panel.js:679-682 | moveBlock refuses exactly when the closure variable is set, and otherwise moves the block to the given position |
| Layout.MoveBlockIntended | static/flow/views/program-editor-panel.js:679-682 | the corrected check: moveBlock refuses exactly while the recorded run mode is on |
| Layout.RunningCheckIsDead | static/flow/views/program-editor-panel.js:679-682 | from the panel's start, after any run-mode switches and right after toggleRunProgramMode(true), moveBlock still moves the block |
| Layout.RunningStopsIntendedMove | static/flow/views/program-editor-panel.js:1785-1795 | with the corrected check a drag is refused exactly when the last run-mode switch turned running on |
| Layout.BlockMouseDown | static/flow/views/program-editor-panel.js:791-814 | nothing is grabbed iff no block contains the point; otherwise the grabbed block contains it, no later block does, it is the block TopHit names, and the grab offset is block corner minus pointer |
| Layout.TopHitIsLastHit | static/flow/views/program-editor-panel.js:802-814 | scanning down from the last drawn block finds block i exactly when i is hit and no later block is, and finds nothing exactly when no block is hit |
| DateName.FormatDatePart | static/flow/views/program-editor-panel.js:232-239 | the string is kept as a prefix; a part below 100 adds two digits that read back as the part; a larger part adds its decimal text |
| DateName.CreateDateTimeNameReadsBack | static/flow/views/program-editor-panel.js:223-248 | for a four-digit year the name is the prefix and 15 characters, with '_' after the date, and the date and time read back from it |
| DateName.CreateDateTimeNameInjective | static/flow/views/program-editor-panel.js:223-248 | different dates with four-digit years give different names |
| Editor.Save | static/flow/views/program-editor-panel.js:186-202 | the panel shows the new diagram, the coordinator takes the autoSaveProgram step, and a save starts iff none was in flight |
| Editor.OnPinMouseUp | static/flow/views/program-editor-panel.js:866-896 | as the source has it: no pressed pin throws; pins facing the same way, and a duplicate refused by the guard on the released pin's block, change nothing and save nothing; otherwise the diagram is connected as the rule says, reconciled, recorded as a non-move history entry and a save is requested |
| Editor.OnPinMouseUpCorrected | static/flow/views/program-editor-panel.js:872-879 | the same handler on the corrected guard: a second connection from one output into a data-storage block changes nothing and saves nothing |
| Editor.PanelGuardsAgreeOnInputRelease | static/flow/views/program-editor-panel.js:870-879 | released over an input pin, the source's handler and the corrected one leave the same panel |
| Editor.OccupiedDestinationStillSaves | static/flow/views/program-editor-panel.js:883-893 | releasing onto an already connected destination connects nothing, yet still reconciles, records a history entry and requests a save |
| Editor.OnConnectionClick | static/flow/views/program-editor-panel.js:917-926 | the cleared diagram is reconciled, recorded and a save requested |
| Editor.OnUndo | static/flow/views/program-editor-panel.js:149-178 | below two entries nothing happens; otherwise the panel shows the second-to-last snapshot reconciled, rebuilds the registry from it, drops the last history entry, clears the move flag and requests a save |
| Editor.UndoRevertsAction | static/flow/views/program-editor-panel.js:133-178 | undo right after a recorded action that evicted nothing brings back the diagram and the history from before it |
| Editor.OnDragMove | static/flow/views/program-editor-panel.js:750-762 | only the grabbed block's x and y change, to the clamped drag position; every other block and the grabbed block's size, pins and value are unchanged; the block moves even while a program runs |
| Editor.OnDragMoveIntended | static/flow/views/program-editor-panel.js:679-682 | with the corrected running check nothing moves while the recorded run mode is on; otherwise it is the source's drag |
| Editor.DragMoveFlag | static/flow/views/program-editor-panel.js:764 | a mouseMove with a block grabbed creates the drag flag with value true; otherwise the flag is as it was |
| Editor.AfterMoves | static/flow/views/program-editor-panel.js:744-765 | after mouseMoves the flag exists once any of them had a block grabbed, and is untouched when none had |
| Editor.OnMouseUp | static/flow/views/program-editor-panel.js:772-781 | as the source has it: with a block grabbed and the drag flag not yet created (possible when the panel is built with `new`) the handler throws; a grabbed block that moved is recorded as a move; otherwise nothing is recorded or saved |
| Editor.OnMouseUpIntended | static/flow/views/program-editor-panel.js:772-781 | the corrected handler reading the flag declared false at construction: it never throws, and records a move exactly when a grabbed block moved |
| Editor.ReleaseBeforeFirstDragThrows | static/flow/views/program-editor-panel.js:776 | for a panel built with `new`, pressing and releasing on a block before any drag has moved a block throws |
| Editor.IntendedReleaseIsQuiet | static/flow/views/program-editor-panel.js:25 | with the declared flag a release without a move changes nothing; once the global exists (always, for a panel built by a plain call) both handlers agree |
| Editor.TwoDragsOneEntry | static/flow/views/program-editor-panel.js:772-781 | two drags in a row leave one history entry holding the second position |
| Editor.OnAddDataStorageBlock | static/flow/views/program-editor-panel.js:1070-1130 | refused iff the diagram already has a data-storage block; otherwise the new block is appended under a unique name, recorded and a save requested |
| Editor.AddedStorageBlockInShape | static/flow/views/program-editor-panel.js:1070-1130 | the added block is the diagram's only data-storage block and is in shape; a well-linked diagram stays well linked |
| Editor.SecondStorageBlockRefused | static/flow/views/program-editor-panel.js:1070-1087 | after one data-storage block is added, adding another is refused |
| Editor.OnLoad | static/flow/views/program-editor-panel.js:68-125 | a missing program is empty; a missing program or a missing or empty name gets the date-time name "program_…"; for a given program the panel exists exactly when reconciling it with device and timer values nulled succeeds, and then holds that reconciled diagram and the registry of the nulled blocks; device and timer blocks hold null; the history restarts with the reconciled diagram; the move flag is false |
| Editor.UndoAfterLoadDoesNothing | static/flow/views/program-editor-panel.js:149-155 | right after a load there is nothing to undo: the panel is unchanged and no save starts |
| Editor.ClearRegisteredValues | static/flow/views/program-editor-panel.js:100-106 | device and timer blocks lose their value and every other block is unchanged |

## Left out

- All DOM, jQuery and SVG work: display of blocks, pins, connections and
  values; the pin pixel offsets; the save status bar; the alert text. None
  of it changes the program.
- `diagram.update()`, `createFlowBlock`, `createPin`, `specToDiagram` and
  `diagramToSpec`. Their code is not part of this model. The snapshot is
  the diagram itself. `createFlowBlock`'s block id is a parameter of the
  added block.
- `block.updateValue` is not part of this model. A reading sets the block's
  value.
- The network `saveProgram` call. Starting a save is a flag in the result.
  Completion is the `SaveComplete` transition, or a `Completed` event in
  the trace model.
- `Date`: the date parts are parameters.
- Double-precision rounding in `parseFloat`: the model uses the exact
  decimal value.
- Params.UpdateNumericParam: the string branch (`Util.filterInvalidCharacters`,
  `sequence_names` editing) and the following `updateAllBlocks` are not
  modelled. Nor is the choice of branch by `isNaN(default)`: the model is
  the numeric branch only.
- Params.ParseFloat: only on text already stripped to digits and dots, the
  only text the source gives it here. Signs, exponents and whitespace are
  not modelled.
- Sensors.HandleSensorData: the `m_diagram == null` early return is not
  modelled, because the panel always holds a diagram here.
- Names.GetUniqueName, Sensors.ApplyReadings and Sensors.NullAbsent: they
  do not model lookups of keys inherited by plain JavaScript objects (such
  as `"constructor"`).
  The registry and the received names are maps and sets of exactly the
  names stored; in the source a device block named `constructor` is never
  nulled.
- The other handlers that edit the diagram: `addDeviceBlock`,
  `addFilterBlock`, `addTimerBlock` and the other add handlers other than
  the data-storage guard, `renameBlock`, `deleteBlock`, `numberEntryChanged`
  and `paramEntryFocusOut`. Only the data-storage add is modelled.
- Editor.OnPinMouseUp, OnConnectionClick, OnUndo and OnLoad: when
  `updateDataStoragePins` throws, the source has already mutated the
  diagram in part. The model returns None there and does not describe that
  partial state.
- DataStorage.UpdateDataStoragePins: its contract only states the length
  and the no-data-storage case. Its behaviour on the one data-storage block
  is stated by StorageProofs.PassReconcilesOnly, ConnectFreePinKeepsInvariant
  and DisconnectKeepsInvariant, for diagrams with a single data-storage
  block (the guard of `addDataStorageBlock` ensures there is at most one).
- `validSequenceNames`, `programHasDataStorageBlock`,
  `getDataStorageBlockDisplayedName`, `piUnselected` and
  `displayBlockValue`. They do not change the diagram's structure.
- Editor.OnDragMove: follows the code as written, so the block moves even
  while a program runs (see Findings). In the page a drag is then stopped by
  the `#program-holder-overlay` element that toggleRunProgramMode shows
  (line 1788), which is DOM and not modelled. Editor.OnDragMoveIntended is
  the drag with the corrected check.
- Editor.OnPinMouseUp: follows the code as written, guard included (see
  Findings). Editor.OnPinMouseUpCorrected is the handler with the corrected
  guard; the well-linked and distinct-sources proofs are about the
  corrected rule.
- Editor.OnMouseUp: when it throws, the source skips `m_dragBlock = null`
  (line 781), so the block keeps following the mouse until the next
  release. The model returns None and does not describe that state. The
  grabbed block itself is the parameter `dragging`.
- Layout.DragPosition, Layout.BlockMouseDown and Editor.OnDragMove: pixel
  coordinates are whole numbers, while `e.pageX` and the offsets are
  doubles in the source. Every operation on them is linear, so no rounding
  is involved.

## Findings

| source | as written | input that shows it | evidently intended | confidence | as-written member | corrected member |
|---|---|---|---|---|---|---|
| static/flow/views/program-editor-panel.js:872-879 | the "no duplicate connections on data storage block" guard tests the block of the released pin (`endPin.block`) with the pressed pin as candidate source | press on the free input of a data-storage block already fed by a sensor's output, release over that same output: the released pin's block is the sensor, so the guard is skipped and the free input gets a second connection from the same output | the guard tests the destination block (the input side) with the output-side pin, whichever pin was pressed first | not executed | Connections.DuplicateGuardBypassed | Connections.PinMouseUpKeepsSourcesDistinct |
| static/flow/views/program-editor-panel.js:679-682 | moveBlock returns early when the closure variable `m_runningProgram` is set; that variable is declared false (line 58) and never assigned, because toggleRunProgramMode writes the object property `this.m_runningProgram` instead (lines 1787 and 1791) | call toggleRunProgramMode(true), then press on a block and move the mouse: moveBlock still updates the block's position (only the overlay shown at line 1788 keeps the pointer away) | moveBlock refuses while the run mode set by toggleRunProgramMode is on | not executed | Layout.RunningCheckIsDead | Layout.RunningStopsIntendedMove |
| static/flow/views/program-editor-panel.js:776 | mouseUp and mouseMove use `dragBlockMoved`, an implicit global assigned only at lines 764 and 779, and not the property `this.dragBlockMoved` set to false at line 25; when the panel is built with `new`, reading it before its first assignment throws a ReferenceError (built by a plain call, line 25 itself creates the global and nothing throws; the construction site is not part of this model) | with a panel built by `new`, after the page loads press on a block and release it without moving the mouse: line 776 reads the undeclared name and throws, and line 781 is skipped | mouseUp reads the panel's own drag flag, false until a drag moves the block | not executed | Editor.ReleaseBeforeFirstDragThrows | Editor.IntendedReleaseIsQuiet |

=== FILE: autosave.dfy ===
/** The autosave coordinator of the editor panel: the single-flight save
    protocol (flags `saving` and `saveAgain`), move coalescing in the history
    (flag `lastChangeMoveBlock`), and the history side of undo and load. The
    network save is an external event: starting one is reported in a Step,
    its completion is the SaveComplete transition. */
module AutoSave {
  import opened Wrappers
  import opened History

  datatype Coordinator<S> = Coordinator(
    history: seq<S>,
    saving: bool,
    saveAgain: bool,
    lastChangeMoveBlock: bool)

  /** A transition of the coordinator and whether it called saveProgram. */
  datatype Step<S> = Step(state: Coordinator<S>, saveStarted: bool)

  /** The single-flight part of autoSaveProgram: start a save unless one is
      in flight, in which case only remember that another one is wanted. */
  function RequestSave<S>(c: Coordinator<S>): (r: Step<S>)
    ensures r.saveStarted <==> !c.saving
    ensures r.state.saving
    ensures r.state.saveAgain <==> c.saveAgain || c.saving
    ensures r.state.history == c.history && r.state.lastChangeMoveBlock == c.lastChangeMoveBlock
  {
    if c.saving then Step(c.(saveAgain := true), false)
    else Step(c.(saving := true), true)
  }

  /** autoSaveProgram(moveBlock, saveState) with `snap` the serialized
      current program. A move that follows a recorded move overwrites the
      last history entry; with saveState false the history and the move flag
      are left alone. */
  function AutoSaveProgram<S>(c: Coordinator<S>, snap: S, moveBlock: bool, saveState: bool): (r: Step<S>)
    ensures r.saveStarted <==> !c.saving
    ensures r.state.saving
    ensures r.state.saveAgain <==> c.saveAgain || c.saving
    ensures !saveState ==>
              r.state.history == c.history && r.state.lastChangeMoveBlock == c.lastChangeMoveBlock
    ensures saveState ==> r.state.lastChangeMoveBlock == moveBlock
    ensures saveState && !(moveBlock && c.lastChangeMoveBlock) ==>
              r.state.history == Store(c.history, snap, false)
    ensures saveState && moveBlock && c.lastChangeMoveBlock ==>
              r.state.history == Store(c.history, snap, true)
  {
    if saveState then
      RequestSave(c.(history := Store(c.history, snap, moveBlock && c.lastChangeMoveBlock),
                     lastChangeMoveBlock := moveBlock))
    else RequestSave(c)
  }

  /** saveComplete: the in-flight save finished (successfully or not). If a
      request arrived meanwhile, exactly one more save starts, without a new
      history entry. */
  function SaveComplete<S>(c: Coordinator<S>): (r: Step<S>)
    ensures r.saveStarted <==> c.saveAgain
    ensures r.state.saving <==> c.saveAgain
    ensures !r.state.saveAgain
    ensures r.state.history == c.history
    ensures r.state.lastChangeMoveBlock == c.lastChangeMoveBlock
  {
    var idle := c.(saving := false);
    if idle.saveAgain then RequestSave(idle.(saveAgain := false))
    else Step(idle, false)
  }

  /** The history and flag side of undoChange: the program to restore, and
      the save it triggers (which records no snapshot). */
  datatype UndoStep<S> = UndoStep(state: Coordinator<S>, restored: Option<S>, saveStarted: bool)

  function UndoChange<S>(c: Coordinator<S>): (r: UndoStep<S>)
    ensures |c.history| < 2 ==> r == UndoStep(c, None, false)
    ensures |c.history| >= 2 ==>
              && r.restored == Some(c.history[|c.history| - 2])
              && r.state.history == c.history[..|c.history| - 1]
              && !r.state.lastChangeMoveBlock
              && r.state.saving
              && (r.saveStarted <==> !c.saving)
              && (r.state.saveAgain <==> c.saveAgain || c.saving)
  {
    match Undo(c.history)
    case NothingToUndo => UndoStep(c, None, false)
    case Restored(rest, state) =>
      var s := RequestSave(c.(history := rest));
      UndoStep(s.state.(lastChangeMoveBlock := false), Some(state), s.saveStarted)
  }

  /** The history side of loadProgram: the history restarts with the loaded
      program as its only entry and the move flag is cleared. */
  function LoadProgram<S>(c: Coordinator<S>, snap: S): (r: Coordinator<S>)
    ensures r.history == [snap] && !r.lastChangeMoveBlock
    ensures Undo(r.history).NothingToUndo?
    ensures r.saving == c.saving && r.saveAgain == c.saveAgain
  {
    c.(history := Store([], snap, false), lastChangeMoveBlock := false)
  }

  /** Record a run of block moves, one autoSaveProgram(true) per drag. */
  function RecordMoves<S>(c: Coordinator<S>, snaps: seq<S>): (r: Coordinator<S>)
    decreases |snaps|
  {
    if |snaps| == 0 then c
    else RecordMoves(AutoSaveProgram(c, snaps[0], true, true).state, snaps[1..])
  }

  /** A run of k >= 1 consecutive moves after a non-move change leaves the
      history exactly as if only the last move had been recorded: one entry. */
  lemma {:induction false} MoveRunAddsOneEntry<S>(c: Coordinator<S>, snaps: seq<S>)
    requires |snaps| >= 1 && !c.lastChangeMoveBlock && Bounded(c.history)
    ensures RecordMoves(c, snaps).history == Store(c.history, snaps[|snaps| - 1], false)
    ensures RecordMoves(c, snaps).lastChangeMoveBlock
  {
    var c1 := AutoSaveProgram(c, snaps[0], true, true).state;
    assert c1.history == Store(c.history, snaps[0], false);
    MoveRunOverwrites(c1, snaps[1..], c.history);
  }

  /** Helper: once a move is recorded on top of `base`, further moves keep
      overwriting that single entry. */
  lemma {:induction false} MoveRunOverwrites<S>(c: Coordinator<S>, snaps: seq<S>, base: seq<S>)
    requires c.lastChangeMoveBlock && Bounded(base)
    requires exists s :: c.history == Store(base, s, false)
    ensures RecordMoves(c, snaps).lastChangeMoveBlock
    ensures |snaps| == 0 ==> RecordMoves(c, snaps) == c
    ensures |snaps| > 0 ==> RecordMoves(c, snaps).history == Store(base, snaps[|snaps| - 1], false)
    decreases |snaps|
  {
    if |snaps| > 0 {
      var s :| c.history == Store(base, s, false);
      var c1 := AutoSaveProgram(c, snaps[0], true, true).state;
      StoreOverwritesLast(base, s, snaps[0]);
      assert c1.history == Store(base, snaps[0], false);
      MoveRunOverwrites(c1, snaps[1..], base);
      if |snaps| == 1 {
        assert snaps[1..] == [];
      } else {
        assert snaps[1..][|snaps[1..]| - 1] == snaps[|snaps| - 1];
      }
    }
  }

  /** Overwriting right after an append is the same as appending the newer
      snapshot in the first place. */
  lemma StoreOverwritesLast<S>(h: seq<S>, a: S, b: S)
    requires Bounded(h)
    ensures Store(Store(h, a, false), b, true) == Store(h, b, false)
  {
    if |h| < MaxSpecHistory {
      assert (h + [a])[..|h|] == h;
    } else {
      assert (h[1..] + [a])[..|h| - 1] == h[1..];
    }
  }

  /** The coordinator together with its environment: how many saves are in
      flight and how many were ever started. */
  datatype World<S> = World(coord: Coordinator<S>, inFlight: nat, started: nat)

  datatype Event<S> = Request(snap: S, moveBlock: bool, saveState: bool) | Completed

  /** The network only reports completion of a save that is in flight. */
  predicate Enabled<S>(w: World<S>, e: Event<S>) {
    e.Completed? ==> w.inFlight > 0
  }

  function Apply<S>(w: World<S>, e: Event<S>): World<S>
    requires Enabled(w, e)
  {
    match e
    case Request(snap, move, save) =>
      var s := AutoSaveProgram(w.coord, snap, move, save);
      World(s.state, w.inFlight + (if s.saveStarted then 1 else 0),
            w.started + (if s.saveStarted then 1 else 0))
    case Completed =>
      var s := SaveComplete(w.coord);
      World(s.state, w.inFlight - 1 + (if s.saveStarted then 1 else 0),
            w.started + (if s.saveStarted then 1 else 0))
  }

  /** Run a trace of events; None when it reports a completion with nothing in flight. */
  function Run<S>(w: World<S>, es: seq<Event<S>>): Option<World<S>>
    decreases |es|
  {
    if |es| == 0 then Some(w)
    else if !Enabled(w, es[0]) then None
    else Run(Apply(w, es[0]), es[1..])
  }

  /** `saving` is true exactly while one save is in flight, and a repeat is
      only ever pending behind an in-flight save. */
  predicate SingleFlight<S>(w: World<S>) {
    && w.inFlight == (if w.coord.saving then 1 else 0)
    && (w.coord.saveAgain ==> w.coord.saving)
  }

  /** Along any trace at most one save is ever in flight. */
  lemma {:induction false} RunKeepsSingleFlight<S>(w: World<S>, es: seq<Event<S>>)
    requires SingleFlight(w)
    ensures Run(w, es).Some? ==> SingleFlight(Run(w, es).value) && Run(w, es).value.inFlight <= 1
    decreases |es|
  {
    if |es| > 0 && Enabled(w, es[0]) {
      RunKeepsSingleFlight(Apply(w, es[0]), es[1..]);
    }
  }

  predicate AllRequests<S>(es: seq<Event<S>>) {
    forall i :: 0 <= i < |es| ==> es[i].Request?
  }

  /** A burst of requests from an idle coordinator starts one save; a second
      save is pending exactly when the burst had more than one request. */
  lemma {:induction false} BurstStartsOneSave<S>(w: World<S>, es: seq<Event<S>>)
    requires SingleFlight(w) && !w.coord.saving
    requires |es| >= 1 && AllRequests(es)
    ensures Run(w, es).Some?
    ensures var w' := Run(w, es).value;
              w'.started == w.started + 1 && w'.inFlight == 1 && w'.coord.saving
              && (w'.coord.saveAgain <==> |es| >= 2)
    decreases |es|
  {
    var w1 := Apply(w, es[0]);
    PendingBurstStartsNothing(w1, es[1..]);
  }

  lemma {:induction false} PendingBurstStartsNothing<S>(w: World<S>, es: seq<Event<S>>)
    requires w.coord.saving && w.inFlight == 1
    requires AllRequests(es)
    ensures Run(w, es).Some?
    ensures var w' := Run(w, es).value;
              w'.started == w.started && w'.inFlight == 1 && w'.coord.saving
              && (w'.coord.saveAgain <==> w.coord.saveAgain || |es| >= 1)
    decreases |es|
  {
    if |es| > 0 {
      assert es[0].Request?;
      PendingBurstStartsNothing(Apply(w, es[0]), es[1..]);
      assert AllRequests(es[1..]);
    }
  }

  /** Three requests before the first completion give two saves in total:
      the immediate one and one coalesced repeat; then the coordinator is idle. */
  lemma ThreeRequestsTwoSaves<S>(w: World<S>, a: S, b: S, c: S)
    requires SingleFlight(w) && !w.coord.saving
    ensures var es := [Request(a, false, true), Request(b, false, true), Request(c, false, true), Completed, Completed];
              Run(w, es).Some?
              && Run(w, es).value.started == w.started + 2
              && Run(w, es).value.inFlight == 0
              && !Run(w, es).value.coord.saving
  {
    var burst: seq<Event<S>> := [Request(a, false, true), Request(b, false, true), Request(c, false, true)];
    BurstStartsOneSave(w, burst);
    RunAppend(w, burst, [Completed, Completed]);
    assert burst + [Completed, Completed] == [Request(a, false, true), Request(b, false, true), Request(c, false, true), Completed, Completed];
  }

  lemma {:induction false} RunAppend<S>(w: World<S>, es: seq<Event<S>>, more: seq<Event<S>>)
    ensures Run(w, es).None? ==> Run(w, es + more).None?
    ensures Run(w, es).Some? ==> Run(w, es + more) == Run(Run(w, es).value, more)
    decreases |es|
  {
    if |es| == 0 {
      assert es + more == more;
    } else {
      assert (es + more)[0] == es[0];
      assert (es + more)[1..] == es[1..] + more;
      if Enabled(w, es[0]) {
        RunAppend(Apply(w, es[0]), es[1..], more);
      }
    }
  }
}

=== FILE: connections.dfy ===
/** The only places the editor creates or clears a connection: releasing the
    mouse over a pin after pressing on another one (pinMouseUp), and clicking
    a drawn connection (connectionClick). */
module Connections {
  import opened Wrappers
  import opened Graph

  /** What pinMouseUp did to the diagram.
      NoActivePin: no pin was pressed first, and reading its direction throws.
      SameDirection: both pins are inputs or both are outputs; nothing happens.
      DuplicateIntoStorage: the data-storage guard returned early; nothing happens.
      Handled: the handler went through to the end (and goes on to recompute and
      autosave); `connected` says whether the destination got the source. */
  datatype MouseUp = NoActivePin | SameDirection | DuplicateIntoStorage | Handled(diagram: Diagram, connected: bool)

  /** Some pin of block b has `src` as its source. */
  predicate HasSource(b: Block, src: PinRef) {
    exists k :: 0 <= k < |b.pins| && b.pins[k].source == Some(src)
  }

  /** The output-side and the input-side pin of a press/release pair. */
  function SourceOf(d: Diagram, start: PinRef, end: PinRef): PinRef
    requires ValidRef(d, end)
  {
    if PinAt(d, end).isInput then start else end
  }

  function DestOf(d: Diagram, start: PinRef, end: PinRef): PinRef
    requires ValidRef(d, end)
  {
    if PinAt(d, end).isInput then end else start
  }

  /** Connect src into dst unless dst already has a source. */
  function ConnectIfFree(d: Diagram, src: PinRef, dst: PinRef): (r: MouseUp)
    requires ValidRef(d, dst)
    ensures r.Handled?
    ensures r.connected <==> PinAt(d, dst).source.None?
    ensures r.connected ==> r.diagram == SetSource(d, dst, Some(src))
    ensures !r.connected ==> r.diagram == d
  {
    if PinAt(d, dst).source.None? then Handled(SetSource(d, dst, Some(src)), true)
    else Handled(d, false)
  }

  /** pinMouseUp as the source has it: the duplicate-connection guard looks
      at the block of the pin the mouse is released over, with the pressed
      pin as the candidate source. The pin data types (numeric or image) are
      not compared. */
  function PinMouseUpAsWritten(d: Diagram, start: Option<PinRef>, end: PinRef): (r: MouseUp)
    requires ValidRef(d, end) && (start.Some? ==> ValidRef(d, start.value))
    ensures r.NoActivePin? <==> start.None?
    ensures start.Some? ==> (r.SameDirection? <==> PinAt(d, start.value).isInput == PinAt(d, end).isInput)
    ensures r.DuplicateIntoStorage? <==>
              && start.Some? && PinAt(d, start.value).isInput != PinAt(d, end).isInput
              && IsDataStorage(d.blocks[end.block]) && HasSource(d.blocks[end.block], start.value)
    ensures r.Handled? ==>
              var src := SourceOf(d, start.value, end);
              var dst := DestOf(d, start.value, end);
              && (r.connected <==> PinAt(d, dst).source.None?)
              && (r.connected ==> r.diagram == SetSource(d, dst, Some(src)))
              && (!r.connected ==> r.diagram == d)
  {
    match start
    case None => NoActivePin
    case Some(s) =>
      if PinAt(d, s).isInput == PinAt(d, end).isInput then SameDirection
      else if IsDataStorage(d.blocks[end.block]) && HasSource(d.blocks[end.block], s) then DuplicateIntoStorage
      else ConnectIfFree(d, SourceOf(d, s, end), DestOf(d, s, end))
  }

  /** pinMouseUp with the duplicate guard applied to the destination block and
      the output-side pin, whichever of the two pins was pressed first. */
  function PinMouseUp(d: Diagram, start: Option<PinRef>, end: PinRef): (r: MouseUp)
    requires ValidRef(d, end) && (start.Some? ==> ValidRef(d, start.value))
    ensures r.NoActivePin? <==> start.None?
    ensures start.Some? ==> (r.SameDirection? <==> PinAt(d, start.value).isInput == PinAt(d, end).isInput)
    ensures r.DuplicateIntoStorage? <==>
              && start.Some? && PinAt(d, start.value).isInput != PinAt(d, end).isInput
              && var dst := DestOf(d, start.value, end);
                 IsDataStorage(d.blocks[dst.block]) && HasSource(d.blocks[dst.block], SourceOf(d, start.value, end))
    ensures r.Handled? ==>
              var src := SourceOf(d, start.value, end);
              var dst := DestOf(d, start.value, end);
              && (r.connected <==> PinAt(d, dst).source.None?)
              && (r.connected ==> r.diagram == SetSource(d, dst, Some(src)))
              && (!r.connected ==> r.diagram == d)
  {
    match start
    case None => NoActivePin
    case Some(s) =>
      if PinAt(d, s).isInput == PinAt(d, end).isInput then SameDirection
      else
        var src := SourceOf(d, s, end);
        var dst := DestOf(d, s, end);
        if IsDataStorage(d.blocks[dst.block]) && HasSource(d.blocks[dst.block], src) then DuplicateIntoStorage
        else ConnectIfFree(d, src, dst)
  }

  /** connectionClick: the clicked connection's destination loses its source. */
  function ConnectionClick(d: Diagram, dest: PinRef): (d': Diagram)
    requires ValidRef(d, dest)
    ensures ValidRef(d', dest) && PinAt(d', dest).source.None?
    ensures OnlySourceChanged(d, d', dest)
  {
    SetSource(d, dest, None)
  }

  /** A connection made by pinMouseUp runs from an output into an input, so
      a well-linked diagram stays well linked. */
  lemma PinMouseUpKeepsWellLinked(d: Diagram, start: Option<PinRef>, end: PinRef)
    requires WellLinked(d) && ValidRef(d, end) && (start.Some? ==> ValidRef(d, start.value))
    ensures PinMouseUp(d, start, end).Handled? ==> WellLinked(PinMouseUp(d, start, end).diagram)
  {
    var r := PinMouseUp(d, start, end);
    if r.Handled? && r.connected {
      SetSourceKeepsWellLinked(d, DestOf(d, start.value, end), Some(SourceOf(d, start.value, end)));
    }
  }

  lemma ConnectionClickKeepsWellLinked(d: Diagram, dest: PinRef)
    requires WellLinked(d) && ValidRef(d, dest)
    ensures WellLinked(ConnectionClick(d, dest))
  {
    SetSourceKeepsWellLinked(d, dest, None);
  }

  /** No two pins of a data-storage block take their data from the same pin. */
  predicate StorageSourcesDistinct(d: Diagram) {
    forall b, i, j ::
      (0 <= b < |d.blocks| && IsDataStorage(d.blocks[b]) && 0 <= i < j < |d.blocks[b].pins|
       && d.blocks[b].pins[i].source.Some?) ==>
        d.blocks[b].pins[i].source != d.blocks[b].pins[j].source
  }

  /** With the guard on the destination, pinMouseUp never gives a
      data-storage block a second connection from the same pin. */
  lemma PinMouseUpKeepsSourcesDistinct(d: Diagram, start: Option<PinRef>, end: PinRef)
    requires StorageSourcesDistinct(d) && ValidRef(d, end) && (start.Some? ==> ValidRef(d, start.value))
    ensures PinMouseUp(d, start, end).Handled? ==> StorageSourcesDistinct(PinMouseUp(d, start, end).diagram)
  {
    var r := PinMouseUp(d, start, end);
    if r.Handled? && r.connected {
      var src := SourceOf(d, start.value, end);
      var dst := DestOf(d, start.value, end);
      var d' := r.diagram;
      forall b, i, j | 0 <= b < |d'.blocks| && IsDataStorage(d'.blocks[b]) && 0 <= i < j < |d'.blocks[b].pins|
        && d'.blocks[b].pins[i].source.Some?
        ensures d'.blocks[b].pins[i].source != d'.blocks[b].pins[j].source
      {
        if b == dst.block && (i == dst.pin || j == dst.pin) {
          var other := if i == dst.pin then j else i;
          assert d'.blocks[b].pins[other] == d.blocks[b].pins[other];
          assert !HasSource(d.blocks[dst.block], src);
          assert d.blocks[b].pins[other].source != Some(src);
        }
      }
    }
  }

  /** The two guards differ only when the drag starts on an input: released
      over an input pin, the block of `end` is the destination and the
      pressed pin the source, so both versions do the same. */
  lemma GuardsAgreeOnInputRelease(d: Diagram, start: Option<PinRef>, end: PinRef)
    requires ValidRef(d, end) && (start.Some? ==> ValidRef(d, start.value))
    requires PinAt(d, end).isInput
    ensures PinMouseUpAsWritten(d, start, end) == PinMouseUp(d, start, end)
  {
  }

  /** The source's guard can be bypassed: press on the free input of a
      data-storage block that is already fed by output pin (0, 0), release
      over that same output pin, and a second connection from it is made. */
  lemma DuplicateGuardBypassed()
    ensures var sensor := Block(1, "temperature", "temperature", [Pin(false, None)], 0, None, None, View(0, 0, 100, 100));
            var store := Block(2, DataStorageType, DataStorageType,
                               [Pin(true, Some(PinRef(0, 0))), Pin(true, None)], 2, Some(map[1 := "temperature"]), None, View(300, 0, 100, 178));
            var d := Diagram([sensor, store]);
            && StorageSourcesDistinct(d)
            && PinMouseUpAsWritten(d, Some(PinRef(1, 1)), PinRef(0, 0)).Handled?
            && PinMouseUpAsWritten(d, Some(PinRef(1, 1)), PinRef(0, 0)).connected
            && !StorageSourcesDistinct(PinMouseUpAsWritten(d, Some(PinRef(1, 1)), PinRef(0, 0)).diagram)
            && PinMouseUp(d, Some(PinRef(1, 1)), PinRef(0, 0)).DuplicateIntoStorage?
  {
    var sensor := Block(1, "temperature", "temperature", [Pin(false, None)], 0, None, None, View(0, 0, 100, 100));
    var store := Block(2, DataStorageType, DataStorageType,
                       [Pin(true, Some(PinRef(0, 0))), Pin(true, None)], 2, Some(map[1 := "temperature"]), None, View(300, 0, 100, 178));
    var d := Diagram([sensor, store]);
    assert !IsDataStorage(sensor);
    assert HasSource(store, PinRef(0, 0)) by {
      assert store.pins[0].source == Some(PinRef(0, 0));
    }
    var r := PinMouseUpAsWritten(d, Some(PinRef(1, 1)), PinRef(0, 0));
    assert r.diagram.blocks[1].pins[0].source == r.diagram.blocks[1].pins[1].source;
  }
}

=== FILE: datastorage.dfy ===
/** Pin reconciliation of the data-storage block (updateDataStoragePins) and
    the one-block guard of addDataStorageBlock. The block keeps one free input
    pin: its input count is driven to "connected pins + 1", one pin is added
    or one free pin removed per call, and its `sequence_names` map gains a
    fresh label for a new source or loses the label of a departed one. */
module DataStorage {
  import opened Wrappers
  import opened Decimal
  import opened Graph

  /** Number of pins whose sourcePin is set. */
  function ConnectedCount(pins: seq<Pin>): (n: nat)
    ensures n <= |pins|
    decreases |pins|
  {
    if |pins| == 0 then 0
    else ConnectedCount(pins[..|pins| - 1]) + (if pins[|pins| - 1].source.Some? then 1 else 0)
  }

  /** Changing one pin changes the count by the change of that pin alone. */
  lemma {:induction false} ConnectedCountUpdate(pins: seq<Pin>, k: nat, p: Pin)
    requires k < |pins|
    ensures ConnectedCount(pins[k := p]) ==
              ConnectedCount(pins) - (if pins[k].source.Some? then 1 else 0) + (if p.source.Some? then 1 else 0)
    decreases |pins|
  {
    var n := |pins|;
    if k < n - 1 {
      assert pins[k := p][..n - 1] == pins[..n - 1][k := p];
      ConnectedCountUpdate(pins[..n - 1], k, p);
    } else {
      assert pins[k := p][..n - 1] == pins[..n - 1];
    }
  }

  lemma {:induction false} ConnectedCountAppend(pins: seq<Pin>, p: Pin)
    ensures ConnectedCount(pins + [p]) == ConnectedCount(pins) + (if p.source.Some? then 1 else 0)
  {
    assert (pins + [p])[..|pins|] == pins;
  }

  /** All pins but the last are connected, and the last is free. */
  predicate ConnectedPrefix(pins: seq<Pin>) {
    && |pins| >= 1
    && (forall k :: 0 <= k < |pins| - 1 ==> pins[k].source.Some?)
    && pins[|pins| - 1].source.None?
  }

  predicate AllInputs(pins: seq<Pin>) {
    forall k :: 0 <= k < |pins| ==> pins[k].isInput
  }

  lemma {:induction false} ConnectedCountOfPrefix(pins: seq<Pin>, n: nat)
    requires n <= |pins|
    requires forall k :: 0 <= k < n ==> pins[k].source.Some?
    requires forall k :: n <= k < |pins| ==> pins[k].source.None?
    ensures ConnectedCount(pins) == n
    decreases |pins|
  {
    if |pins| > 0 {
      if n == |pins| {
        ConnectedCountOfPrefix(pins[..|pins| - 1], n - 1);
      } else {
        ConnectedCountOfPrefix(pins[..|pins| - 1], n);
      }
    }
  }

  /** The block's declared input count matches its connections plus one free pin. */
  predicate Balanced(b: Block) {
    b.inputCount == ConnectedCount(b.pins) + 1
  }

  /** Index of the first unconnected pin, |pins| when every pin is connected. */
  function FirstFreeIndex(pins: seq<Pin>): (k: nat)
    ensures k <= |pins|
    ensures forall j :: 0 <= j < k ==> pins[j].source.Some?
    ensures k < |pins| ==> pins[k].source.None?
    decreases |pins|
  {
    if |pins| == 0 then 0
    else if pins[0].source.None? then 0
    else 1 + FirstFreeIndex(pins[1..])
  }

  /** Remove the first unconnected pin, if there is one. */
  function RemoveFirstFree(pins: seq<Pin>): (r: seq<Pin>)
    ensures FirstFreeIndex(pins) < |pins| ==> |r| == |pins| - 1
    ensures FirstFreeIndex(pins) == |pins| ==> r == pins
    ensures forall p :: p in r ==> p in pins
    ensures (forall j :: 0 <= j < |pins| ==> pins[j].source.Some?) ==> r == pins
    ensures FirstFreeIndex(pins) < |pins| ==>
              exists k :: 0 <= k < |pins| && pins[k].source.None? &&
                (forall j :: 0 <= j < k ==> pins[j].source.Some?) && r == pins[..k] + pins[k + 1..]
  {
    var k := FirstFreeIndex(pins);
    if k < |pins| then pins[..k] + pins[k + 1..] else pins
  }

  /** A label for a new source named `base` that no current label uses: the
      name itself, else the name followed by the smallest counter from 1 on. */
  function FreshLabel(labels: set<string>, base: string): (r: string)
    ensures r !in labels
    ensures base !in labels ==> r == base
    ensures base in labels ==>
              exists k :: 1 <= k && r == Numbered(base, k) &&
                forall j :: 1 <= j < k ==> Numbered(base, j) in labels
  {
    if base !in labels then base else Numbered(base, FirstFreeCounter(labels, base, 1))
  }

  lemma {:induction false} MinOf(c: set<nat>) returns (k: nat)
    requires c != {}
    ensures k in c && forall j :: j in c ==> k <= j
    decreases |c|
  {
    var x :| x in c;
    var rest := c - {x};
    if rest == {} {
      k := x;
      forall j | j in c ensures k <= j {
        assert j !in rest;
      }
    } else {
      var m := MinOf(rest);
      k := if x < m then x else m;
      forall j | j in c ensures k <= j {
        if j != x {
          assert j in rest;
        }
      }
    }
  }

  lemma MinExists(c: set<nat>)
    requires c != {}
    ensures exists k :: k in c && forall j :: j in c ==> k <= j
  {
    var k := MinOf(c);
  }

  /** The smallest key: the first key Object.keys yields for integer keys. */
  function MinKey(c: set<nat>): (k: nat)
    requires c != {}
    ensures k in c && forall j :: j in c ==> k <= j
  {
    MinExists(c);
    var k :| k in c && forall j :: j in c ==> k <= j;
    k
  }

  /** Remove the first label key (in key order) that no live source has;
      nothing when every key is still live. */
  function RemoveStaleLabel(labels: map<nat, string>, live: set<nat>): (r: map<nat, string>)
    ensures labels.Keys <= live ==> r == labels
    ensures !(labels.Keys <= live) ==>
              exists x :: x in labels && x !in live && r == labels - {x}
                && forall y :: y in labels && y !in live ==> x <= y
  {
    var stale := labels.Keys - live;
    if stale == {} then
      assert forall x :: x in labels ==> x in stale || x in live;
      labels
    else
      var x := MinKey(stale);
      assert x in labels && x !in live;
      assert forall y :: y in labels && y !in live ==> y in stale;
      labels - {x}
  }

  /** Every source reference of the diagram names a block of the diagram. */
  predicate Resolves(d: Diagram) {
    forall b, k :: 0 <= b < |d.blocks| && 0 <= k < |d.blocks[b].pins| && d.blocks[b].pins[k].source.Some? ==>
      d.blocks[b].pins[k].source.value.block < |d.blocks|
  }

  lemma WellLinkedResolves(d: Diagram)
    requires WellLinked(d)
    ensures Resolves(d)
  {
    forall b, k | 0 <= b < |d.blocks| && 0 <= k < |d.blocks[b].pins| && d.blocks[b].pins[k].source.Some?
      ensures d.blocks[b].pins[k].source.value.block < |d.blocks|
    {
      assert PinLinked(d, d.blocks[b].pins[k]);
    }
  }

  predicate Feeds(d: Diagram, p: Pin) {
    p.source.Some? && p.source.value.block < |d.blocks|
  }

  /** The block a connected pin takes its data from. */
  function SourceBlock(d: Diagram, p: Pin): Block
    requires Feeds(d, p)
  {
    d.blocks[p.source.value.block]
  }

  /** Ids of the blocks feeding some pin of `pins`. */
  function SourceIds(d: Diagram, pins: seq<Pin>): set<nat> {
    set k | 0 <= k < |pins| && Feeds(d, pins[k]) :: SourceBlock(d, pins[k]).id
  }

  /** The height of a data-storage block with n input pins: 142 pixels for
      the first pin and 36 for each further one. */
  function StorageBlockHeight(n: nat): (h: int)
    ensures n >= 1 ==> h >= 142
  {
    142 + (n - 1) * 36
  }

  /** Some pin among the first n has a source. */
  predicate FedWithin(pins: seq<Pin>, n: nat) {
    exists x :: 0 <= x < n && x < |pins| && pins[x].source.Some?
  }

  /** One unbalanced data-storage block brought back towards balance: the
      input count becomes connected + 1; a pin is added when the count was too
      low and the first free pin removed when it was too high; the label map
      follows, and the block is resized to its new pin count. None: the
      source throws, either reading the source of pin (connected - 1) when
      adding a label but that pin is missing or free; or, when removing,
      reading the source of each of the first connected + 1 pins to label
      them although the removal left fewer pins than that; or, for a block
      without sequence_names, looking up the label of a fed pin among those
      first connected + 1 in a key list no block of this pass has filled
      (`keysKnown` is false). */
  function ReconcileBlock(d: Diagram, i: nat, keysKnown: bool): (r: Option<Block>)
    requires i < |d.blocks| && Resolves(d) && !Balanced(d.blocks[i])
    ensures var b := d.blocks[i];
            var c := ConnectedCount(b.pins);
            var adding := !(b.inputCount > c + 1);
            var pins' := if adding then b.pins + [Pin(true, None)] else RemoveFirstFree(b.pins);
            && (r.None? <==>
                  || (adding && b.sequenceNames.Some? && (c == 0 || b.pins[c - 1].source.None?))
                  || (!adding && |b.pins| <= c + 1)
                  || (b.sequenceNames.None? && !keysKnown && FedWithin(pins', c + 1)))
            && (r.Some? ==>
                  && r.value.inputCount == c + 1
                  && r.value.(pins := b.pins, inputCount := b.inputCount, sequenceNames := b.sequenceNames,
                              view := b.view) == b
                  && r.value.view == b.view.(h := StorageBlockHeight(c + 1))
                  && (forall p :: p in r.value.pins ==> p in b.pins || p.source.None?)
                  && (adding ==> r.value.pins == b.pins + [Pin(true, None)])
                  && (!adding ==> r.value.pins == RemoveFirstFree(b.pins))
                  && (b.sequenceNames.None? ==> r.value.sequenceNames.None?)
                  && (adding && b.sequenceNames.Some? ==>
                        var src := SourceBlock(d, b.pins[c - 1]);
                        var m := b.sequenceNames.value;
                        r.value.sequenceNames == Some(m[src.id := FreshLabel(m.Values, src.name)]))
                  && (!adding && b.sequenceNames.Some? ==>
                        r.value.sequenceNames == Some(RemoveStaleLabel(b.sequenceNames.value, SourceIds(d, r.value.pins)))))
  {
    var b := d.blocks[i];
    var c := ConnectedCount(b.pins);
    var adding := !(b.inputCount > c + 1);
    var pins := if adding then b.pins + [Pin(true, None)] else RemoveFirstFree(b.pins);
    var b := b.(view := b.view.(h := StorageBlockHeight(c + 1)));
    if !adding && |b.pins| <= c + 1 then None
    else match b.sequenceNames
    case None =>
      if !keysKnown && FedWithin(pins, c + 1) then None
      else Some(b.(inputCount := c + 1, pins := pins))
    case Some(m) =>
      if adding then
        if c == 0 || b.pins[c - 1].source.None? then None
        else
          assert Feeds(d, b.pins[c - 1]);
          var src := SourceBlock(d, b.pins[c - 1]);
          Some(b.(inputCount := c + 1, pins := pins,
                  sequenceNames := Some(m[src.id := FreshLabel(m.Values, src.name)])))
      else
        Some(b.(inputCount := c + 1, pins := pins,
                sequenceNames := Some(RemoveStaleLabel(m, SourceIds(d, pins)))))
  }

  /** updateDataStoragePins: visit the blocks in order; the first balanced
      data-storage block ends the whole pass, an unbalanced one is reconciled.
      `keysKnown`: an earlier reconciled block with sequence_names has filled
      the pass's function-scoped key list, which later blocks still see. */
  function ReconcileFrom(d: Diagram, i: nat, keysKnown: bool): (r: Option<Diagram>)
    requires Resolves(d)
    ensures r.Some? ==> |r.value.blocks| == |d.blocks| && Resolves(r.value)
    ensures r.Some? ==> forall j :: 0 <= j < |d.blocks| && !IsDataStorage(d.blocks[j]) ==> r.value.blocks[j] == d.blocks[j]
    ensures r.Some? ==> forall j :: 0 <= j < |d.blocks| && j < i ==> r.value.blocks[j] == d.blocks[j]
    decreases |d.blocks| - i
  {
    if i >= |d.blocks| then Some(d)
    else if !IsDataStorage(d.blocks[i]) then ReconcileFrom(d, i + 1, keysKnown)
    else if Balanced(d.blocks[i]) then Some(d)
    else
      match ReconcileBlock(d, i, keysKnown)
      case None => None
      case Some(b) => ReconcileFrom(ReplaceBlock(d, i, b), i + 1, keysKnown || d.blocks[i].sequenceNames.Some?)
  }

  /** Put a reconciled block back: its pins are old pins or new free ones,
      so every source reference still resolves. */
  function ReplaceBlock(d: Diagram, i: nat, b: Block): (r: Diagram)
    requires Resolves(d) && i < |d.blocks|
    requires forall p :: p in b.pins ==> p in d.blocks[i].pins || p.source.None?
    ensures Resolves(r) && |r.blocks| == |d.blocks| && r.blocks[i] == b
    ensures forall j :: 0 <= j < |d.blocks| && j != i ==> r.blocks[j] == d.blocks[j]
  {
    var r := d.(blocks := d.blocks[i := b]);
    assert Resolves(r) by {
      forall bi, k | 0 <= bi < |r.blocks| && 0 <= k < |r.blocks[bi].pins| && r.blocks[bi].pins[k].source.Some?
        ensures r.blocks[bi].pins[k].source.value.block < |r.blocks|
      {
        if bi == i {
          var p := r.blocks[bi].pins[k];
          assert p in b.pins;
          assert p in d.blocks[i].pins;
        }
      }
    }
    r
  }

  /** updateAllBlocks as far as structure goes (value recomputation is not part
      of this model): the whole reconciliation pass. */
  function UpdateDataStoragePins(d: Diagram): (r: Option<Diagram>)
    requires Resolves(d)
    ensures r.Some? ==> |r.value.blocks| == |d.blocks|
    ensures NoDataStorage(d) ==> r == Some(d)
  {
    NoStorageFrom(d, 0, false);
    ReconcileFrom(d, 0, false)
  }

  /** Reconciliation changes only pins, input counts and labels: every
      block keeps its type, name and value. */
  lemma {:induction false} ReconcileKeepsValues(d: Diagram, i: nat, keysKnown: bool)
    requires Resolves(d)
    ensures var r := ReconcileFrom(d, i, keysKnown);
            r.Some? ==> forall j :: 0 <= j < |d.blocks| ==>
              r.value.blocks[j].blockType == d.blocks[j].blockType
              && r.value.blocks[j].name == d.blocks[j].name
              && r.value.blocks[j].value == d.blocks[j].value
    decreases |d.blocks| - i
  {
    if i < |d.blocks| && IsDataStorage(d.blocks[i]) && !Balanced(d.blocks[i]) {
      match ReconcileBlock(d, i, keysKnown)
      case None =>
      case Some(b) => ReconcileKeepsValues(ReplaceBlock(d, i, b), i + 1, keysKnown || d.blocks[i].sequenceNames.Some?);
    } else if i < |d.blocks| && !IsDataStorage(d.blocks[i]) {
      ReconcileKeepsValues(d, i + 1, keysKnown);
    }
  }

  lemma {:induction false} NoStorageFrom(d: Diagram, i: nat, keysKnown: bool)
    requires Resolves(d)
    ensures (forall j :: i <= j < |d.blocks| ==> !IsDataStorage(d.blocks[j])) ==> ReconcileFrom(d, i, keysKnown) == Some(d)
    decreases |d.blocks| - i
  {
    if i < |d.blocks| {
      NoStorageFrom(d, i + 1, keysKnown);
    }
  }

  /** The shape of a data-storage block that the editor keeps: one declared
      input per pin, all pins inputs, connected pins first and one free pin
      last, and one label per source block, no two labels equal. */
  predicate StorageInvariant(d: Diagram, s: nat) {
    && s < |d.blocks|
    && var b := d.blocks[s];
       && IsDataStorage(b)
       && b.inputCount == |b.pins|
       && ConnectedPrefix(b.pins)
       && AllInputs(b.pins)
       && b.sequenceNames.Some?
       && b.sequenceNames.value.Keys == SourceIds(d, b.pins)
       && LabelsDistinct(b.sequenceNames.value)
  }

  predicate LabelsDistinct(m: map<nat, string>) {
    forall x, y :: x in m && y in m && x != y ==> m[x] != m[y]
  }

  /** A balanced block ends the pass unchanged. */
  lemma InvariantBalanced(d: Diagram, s: nat)
    requires StorageInvariant(d, s)
    ensures Balanced(d.blocks[s])
  {
    var pins := d.blocks[s].pins;
    ConnectedCountOfPrefix(pins, |pins| - 1);
  }
}

=== FILE: datename.dfy ===
/** createDateTimeName: the default name of a new program, the prefix
    followed by the date and time as digits (yyyyMMdd_hhmmss when every part
    fits). The clock is not modelled: the date parts are given. */
module DateName {
  import opened Decimal

  /** The parts Date yields: month counted from 1, hours 0-23 and so on. */
  datatype DateTime = DateTime(year: nat, month: nat, day: nat, hour: nat, minute: nat, second: nat)

  /** formatDatePart: appends the part, with a leading "0" below 10. */
  function FormatDatePart(datestring: string, part: nat): (r: string)
    ensures |datestring| <= |r| && r[..|datestring|] == datestring
    ensures part < 100 ==> |r| == |datestring| + 2 && AllDigits(r[|datestring|..]) && ParseNat(r[|datestring|..]) == part
    ensures part >= 100 ==> r == datestring + NatToString(part)
  {
    ParseNatToString(part);
    if part < 10 then
      ParseNatLeadingZero(NatToString(part));
      var r := datestring + "0" + NatToString(part);
      assert r[|datestring|..] == "0" + NatToString(part);
      r
    else
      var r := datestring + NatToString(part);
      assert r[|datestring|..] == NatToString(part);
      r
  }

  function CreateDateTimeName(prefix: string, t: DateTime): string {
    var name := prefix + NatToString(t.year);
    var name := FormatDatePart(name, t.month);
    var name := FormatDatePart(name, t.day) + "_";
    var name := FormatDatePart(name, t.hour);
    var name := FormatDatePart(name, t.minute);
    FormatDatePart(name, t.second)
  }

  /** A four-digit year and parts below 100: the shape yyyyMMdd_hhmmss. */
  predicate FixedWidth(t: DateTime) {
    1000 <= t.year < 10000 && t.month < 100 && t.day < 100 && t.hour < 100 && t.minute < 100 && t.second < 100
  }

  /** The digits of s at [i, j) as a number. */
  function Field(s: string, i: nat, j: nat): nat
    requires i <= j <= |s|
  {
    if AllDigits(s[i..j]) then ParseNat(s[i..j]) else 0
  }

  /** Reading a fixed-width name back, with the prefix length given. */
  function ReadDateTimeName(name: string, p: nat): DateTime
    requires p + 15 <= |name|
  {
    DateTime(Field(name, p, p + 4), Field(name, p + 4, p + 6), Field(name, p + 6, p + 8),
             Field(name, p + 9, p + 11), Field(name, p + 11, p + 13), Field(name, p + 13, p + 15))
  }

  /** Appending a two-digit part keeps what came before and can be read back. */
  lemma PartReadsBack(ds: string, part: nat, rest: string)
    requires part < 100
    ensures var s := FormatDatePart(ds, part) + rest;
            |ds| + 2 <= |s| && s[..|ds|] == ds && Field(s, |ds|, |ds| + 2) == part
  {
    var f := FormatDatePart(ds, part);
    var s := f + rest;
    assert s[|ds|..|ds| + 2] == f[|ds|..];
    assert s[..|ds|] == f[..|ds|];
  }

  /** The name of a fixed-width date is the prefix and fifteen characters,
      and the date can be read back from it. */
  lemma CreateDateTimeNameReadsBack(prefix: string, t: DateTime)
    requires FixedWidth(t)
    ensures var name := CreateDateTimeName(prefix, t);
            && |name| == |prefix| + 15
            && name[..|prefix|] == prefix
            && name[|prefix| + 8] == '_'
            && ReadDateTimeName(name, |prefix|) == t
  {
    var p := |prefix|;
    var n0 := prefix + NatToString(t.year);
    var n1 := FormatDatePart(n0, t.month);
    var n2 := FormatDatePart(n1, t.day) + "_";
    var n3 := FormatDatePart(n2, t.hour);
    var n4 := FormatDatePart(n3, t.minute);
    var name := FormatDatePart(n4, t.second);
    assert name == CreateDateTimeName(prefix, t);
    // each part read back from the last string it was appended to
    PartReadsBack(n4, t.second, []);
    assert name + [] == name;
    assert name[..p + 13] == n4;
    assert n4[..p + 11] == n3;
    assert n3[..p + 9] == n2;
    assert n2[..p + 8] == FormatDatePart(n1, t.day);
    assert FormatDatePart(n1, t.day)[..p + 6] == n1;
    assert n1[..p + 4] == n0;
    assert n0[..p] == prefix;
    assert name[p..p + 4] == n0[p..] == NatToString(t.year);
    ParseNatToString(t.year);
    assert name[p + 4..p + 6] == n1[p + 4..];
    assert name[p + 6..p + 8] == FormatDatePart(n1, t.day)[p + 6..];
    assert name[p + 8] == n2[p + 8];
    assert name[p + 9..p + 11] == n3[p + 9..];
    assert name[p + 11..p + 13] == n4[p + 11..];
  }

  /** Different fixed-width dates give different names. */
  lemma CreateDateTimeNameInjective(prefix: string, t1: DateTime, t2: DateTime)
    requires FixedWidth(t1) && FixedWidth(t2) && t1 != t2
    ensures CreateDateTimeName(prefix, t1) != CreateDateTimeName(prefix, t2)
  {
    CreateDateTimeNameReadsBack(prefix, t1);
    CreateDateTimeNameReadsBack(prefix, t2);
  }
}

=== FILE: decimal.dfy ===
/** Decimal text of non-negative integers, as JavaScript renders an integral
    number when it is concatenated with a string (`name + count`), and the
    inverse parse used to state round trips. */
module Decimal {

  predicate IsDigit(c: char) {
    '0' <= c <= '9'
  }

  predicate AllDigits(s: string) {
    forall i :: 0 <= i < |s| ==> IsDigit(s[i])
  }

  function DigitValue(c: char): (d: nat)
    requires IsDigit(c)
    ensures d < 10
  {
    c as int - '0' as int
  }

  function DigitChar(d: nat): (c: char)
    requires d < 10
    ensures IsDigit(c) && DigitValue(c) == d
  {
    ('0' as int + d) as char
  }

  /** The shortest decimal text of n: no sign, no leading zero. */
  function NatToString(n: nat): (s: string)
    ensures 1 <= |s| && AllDigits(s)
    ensures n < 10 <==> |s| == 1
    ensures 10 <= n < 100 ==> |s| == 2
    ensures 100 <= n < 1000 ==> |s| == 3
    ensures 1000 <= n < 10000 ==> |s| == 4
    decreases n
  {
    if n < 10 then [DigitChar(n)] else NatToString(n / 10) + [DigitChar(n % 10)]
  }

  /** Value of a string of decimal digits (leading zeros allowed). */
  function ParseNat(s: string): nat
    requires AllDigits(s)
  {
    if |s| == 0 then 0 else ParseNat(s[..|s| - 1]) * 10 + DigitValue(s[|s| - 1])
  }

  lemma {:induction false} ParseNatToString(n: nat)
    ensures ParseNat(NatToString(n)) == n
    decreases n
  {
    if n >= 10 {
      var s := NatToString(n);
      assert s[..|s| - 1] == NatToString(n / 10);
      ParseNatToString(n / 10);
    }
  }

  /** Distinct counters give distinct texts. */
  lemma NatToStringInjective(a: nat, b: nat)
    ensures NatToString(a) == NatToString(b) ==> a == b
  {
    ParseNatToString(a);
    ParseNatToString(b);
  }

  /** A leading zero does not change the parsed value. */
  lemma {:induction false} ParseNatLeadingZero(t: string)
    requires AllDigits(t)
    ensures AllDigits("0" + t) && ParseNat("0" + t) == ParseNat(t)
    decreases |t|
  {
    var z := "0" + t;
    if |t| > 0 {
      assert z[..|z| - 1] == "0" + t[..|t| - 1];
      ParseNatLeadingZero(t[..|t| - 1]);
    }
  }

  /** `base` followed by the decimal text of k: the JavaScript `base + k`. */
  function Numbered(base: string, k: nat): string {
    base + NatToString(k)
  }

  /** Appending different counters to one base gives different strings. */
  lemma NumberedInjective(base: string, a: nat, b: nat)
    ensures Numbered(base, a) == Numbered(base, b) ==> a == b
  {
    if Numbered(base, a) == Numbered(base, b) {
      assert Numbered(base, a)[|base|..] == NatToString(a);
      assert Numbered(base, b)[|base|..] == NatToString(b);
      NatToStringInjective(a, b);
    }
  }

  /** The smallest counter k >= from for which `prefix + k` is not taken.
      The search always ends because `taken` is finite and each counter
      names a different string. */
  function FirstFreeCounter(taken: set<string>, prefix: string, from: nat): (k: nat)
    ensures from <= k
    ensures Numbered(prefix, k) !in taken
    ensures forall j :: from <= j < k ==> Numbered(prefix, j) in taken
    decreases |taken|
  {
    var s := Numbered(prefix, from);
    if s in taken then
      var k := FirstFreeCounter(taken - {s}, prefix, from + 1);
      NumberedInjective(prefix, k, from);
      k
    else
      from
  }
}

=== FILE: editor.dfy ===
/** The editor panel's handlers put together: each user action changes the
    diagram, runs the data-storage reconciliation (updateAllBlocks) and asks
    the autosave coordinator to record and save the result. A snapshot is
    the diagram itself (diagramToSpec and specToDiagram are taken as
    inverse). `deviceTypes` is DEVICE_BLOCKS. None stands for a handler that
    throws before it finishes. */
module Editor {
  import opened Wrappers
  import opened History
  import opened AutoSave
  import opened Graph
  import opened Connections
  import opened DataStorage
  import opened Names
  import opened Layout
  import opened DateName

  datatype Panel = Panel(
    diagram: Diagram,
    programName: string,
    coord: Coordinator<Diagram>,
    nameHash: map<string, nat>)

  /** A panel after a handler, and whether the handler called saveProgram. */
  datatype Outcome = Outcome(panel: Panel, saveStarted: bool)

  predicate AllResolve(h: seq<Diagram>) {
    forall k :: 0 <= k < |h| ==> Resolves(h[k])
  }

  /** Every connection of the current diagram and of every stored snapshot
      names an existing block, as object references always do. */
  predicate Ready(p: Panel) {
    Resolves(p.diagram) && AllResolve(p.coord.history) && Bounded(p.coord.history)
  }

  lemma StoreKeepsResolving(h: seq<Diagram>, snap: Diagram, overwrite: bool)
    requires AllResolve(h) && Bounded(h) && Resolves(snap)
    ensures AllResolve(Store(h, snap, overwrite))
  {
    var r := Store(h, snap, overwrite);
    forall k | 0 <= k < |r| ensures Resolves(r[k]) {
      if k == |r| - 1 && !(overwrite && |h| == 0) {
        assert r[k] == snap;
      } else if !overwrite && |h| == MaxSpecHistory {
        assert r[k] == r[..|r| - 1][k] == h[1..][k];
      } else if overwrite && |h| > 0 {
        assert r[k] == r[..|r| - 1][k] == h[..|h| - 1][k];
      }
    }
  }

  /** autoSaveProgram(moveBlock, saveState) with the panel showing d. */
  function Save(p: Panel, d: Diagram, moveBlock: bool, saveState: bool): (r: Outcome)
    requires Ready(p) && Resolves(d)
    ensures Ready(r.panel) && r.panel.diagram == d
    ensures r.panel.nameHash == p.nameHash && r.panel.programName == p.programName
    ensures r.panel.coord == AutoSaveProgram(p.coord, d, moveBlock, saveState).state
    ensures r.saveStarted <==> !p.coord.saving
  {
    var s := AutoSaveProgram(p.coord, d, moveBlock, saveState);
    StoreKeepsResolving(p.coord.history, d, moveBlock && p.coord.lastChangeMoveBlock);
    Outcome(p.(diagram := d, coord := s.state), s.saveStarted)
  }

  lemma SetSourceKeepsResolves(d: Diagram, r: PinRef, src: Option<PinRef>)
    requires Resolves(d) && ValidRef(d, r) && (src.Some? ==> src.value.block < |d.blocks|)
    ensures Resolves(SetSource(d, r, src))
  {
    var d' := SetSource(d, r, src);
    forall b, k | 0 <= b < |d'.blocks| && 0 <= k < |d'.blocks[b].pins| && d'.blocks[b].pins[k].source.Some?
      ensures d'.blocks[b].pins[k].source.value.block < |d'.blocks|
    {
      if !(b == r.block && k == r.pin) {
        assert d'.blocks[b].pins[k] == d.blocks[b].pins[k];
      }
    }
  }

  lemma ConnectedKeepsResolves(d: Diagram, start: PinRef, end: PinRef, m: MouseUp)
    requires Resolves(d) && ValidRef(d, end) && ValidRef(d, start)
    requires m == PinMouseUpAsWritten(d, Some(start), end) || m == PinMouseUp(d, Some(start), end)
    requires m.Handled?
    ensures Resolves(m.diagram)
  {
    if m.connected {
      SetSourceKeepsResolves(d, DestOf(d, start, end), Some(SourceOf(d, start, end)));
    }
  }

  /** Releasing the mouse over pin `end` after pressing pin `start`
      (pinMouseUp as the source has it, with the duplicate guard on the block
      of `end`). When the two pins face each other and the guard lets the
      pair through, the diagram is reconciled and recorded even if the
      destination already had a source and nothing was connected. */
  function OnPinMouseUp(p: Panel, start: Option<PinRef>, end: PinRef): (r: Option<Outcome>)
    requires Ready(p) && ValidRef(p.diagram, end) && (start.Some? ==> ValidRef(p.diagram, start.value))
    ensures start.None? ==> r.None?
    ensures r.Some? ==> Ready(r.value.panel) && r.value.panel.nameHash == p.nameHash
    ensures var m := PinMouseUpAsWritten(p.diagram, start, end);
            && (m.SameDirection? || m.DuplicateIntoStorage? ==> r == Some(Outcome(p, false)))
            && (m.Handled? ==>
                  && Resolves(m.diagram)
                  && (r.Some? <==> UpdateDataStoragePins(m.diagram).Some?)
                  && (r.Some? ==>
                        && r.value.panel.diagram == UpdateDataStoragePins(m.diagram).value
                        && r.value.panel.coord.history == Store(p.coord.history, r.value.panel.diagram, false)
                        && !r.value.panel.coord.lastChangeMoveBlock
                        && r.value.panel.coord.saving
                        && (r.value.saveStarted <==> !p.coord.saving)))
  {
    var m := PinMouseUpAsWritten(p.diagram, start, end);
    match m
    case NoActivePin => None
    case SameDirection => Some(Outcome(p, false))
    case DuplicateIntoStorage => Some(Outcome(p, false))
    case Handled(d1, connected) =>
      ConnectedKeepsResolves(p.diagram, start.value, end, m);
      match UpdateDataStoragePins(d1)
      case None => None
      case Some(d2) => Some(Save(p, d2, false, true))
  }

  /** pinMouseUp with the corrected duplicate guard (Connections.PinMouseUp):
      the same handler, refusing a second connection from one output into a
      data-storage block whichever pin was pressed first. */
  function OnPinMouseUpCorrected(p: Panel, start: Option<PinRef>, end: PinRef): (r: Option<Outcome>)
    requires Ready(p) && ValidRef(p.diagram, end) && (start.Some? ==> ValidRef(p.diagram, start.value))
    ensures start.None? ==> r.None?
    ensures r.Some? ==> Ready(r.value.panel) && r.value.panel.nameHash == p.nameHash
    ensures var m := PinMouseUp(p.diagram, start, end);
            && (m.SameDirection? || m.DuplicateIntoStorage? ==> r == Some(Outcome(p, false)))
            && (m.Handled? ==>
                  && Resolves(m.diagram)
                  && (r.Some? <==> UpdateDataStoragePins(m.diagram).Some?)
                  && (r.Some? ==>
                        && r.value.panel.diagram == UpdateDataStoragePins(m.diagram).value
                        && r.value.panel.coord.history == Store(p.coord.history, r.value.panel.diagram, false)
                        && !r.value.panel.coord.lastChangeMoveBlock
                        && r.value.panel.coord.saving
                        && (r.value.saveStarted <==> !p.coord.saving)))
  {
    var m := PinMouseUp(p.diagram, start, end);
    match m
    case NoActivePin => None
    case SameDirection => Some(Outcome(p, false))
    case DuplicateIntoStorage => Some(Outcome(p, false))
    case Handled(d1, connected) =>
      ConnectedKeepsResolves(p.diagram, start.value, end, m);
      match UpdateDataStoragePins(d1)
      case None => None
      case Some(d2) => Some(Save(p, d2, false, true))
  }

  /** Released over an input pin, the source's handler and the corrected one
      leave the panel in the same state. */
  lemma PanelGuardsAgreeOnInputRelease(p: Panel, start: Option<PinRef>, end: PinRef)
    requires Ready(p) && ValidRef(p.diagram, end) && (start.Some? ==> ValidRef(p.diagram, start.value))
    requires PinAt(p.diagram, end).isInput
    ensures OnPinMouseUp(p, start, end) == OnPinMouseUpCorrected(p, start, end)
  {
    GuardsAgreeOnInputRelease(p.diagram, start, end);
  }

  /** A release that faces an already connected destination changes no
      connection, yet the panel still reconciles and records a new history
      entry and requests a save. */
  lemma OccupiedDestinationStillSaves(p: Panel, start: PinRef, end: PinRef)
    requires Ready(p) && ValidRef(p.diagram, end) && ValidRef(p.diagram, start)
    requires PinAt(p.diagram, start).isInput != PinAt(p.diagram, end).isInput
    requires PinAt(p.diagram, DestOf(p.diagram, start, end)).source.Some?
    requires !(IsDataStorage(p.diagram.blocks[end.block]) && HasSource(p.diagram.blocks[end.block], start))
    requires UpdateDataStoragePins(p.diagram).Some?
    ensures var r := OnPinMouseUp(p, Some(start), end);
            && r.Some?
            && r.value.panel.diagram == UpdateDataStoragePins(p.diagram).value
            && r.value.panel.coord.history == Store(p.coord.history, r.value.panel.diagram, false)
            && r.value.panel.coord.saving
  {
  }

  /** Clicking a drawn connection (connectionClick): its destination loses its
      source, the diagram is reconciled and recorded, and a save requested. */
  function OnConnectionClick(p: Panel, dest: PinRef): (r: Option<Outcome>)
    requires Ready(p) && ValidRef(p.diagram, dest)
    ensures var d1 := ConnectionClick(p.diagram, dest);
            && Resolves(d1)
            && (r.Some? <==> UpdateDataStoragePins(d1).Some?)
            && (r.Some? ==>
                  && Ready(r.value.panel)
                  && r.value.panel.diagram == UpdateDataStoragePins(d1).value
                  && r.value.panel.coord.history == Store(p.coord.history, r.value.panel.diagram, false)
                  && (r.value.saveStarted <==> !p.coord.saving))
  {
    SetSourceKeepsResolves(p.diagram, dest, None);
    match UpdateDataStoragePins(ConnectionClick(p.diagram, dest))
    case None => None
    case Some(d2) => Some(Save(p, d2, false, true))
  }

  /** undoChange (ctrl+z): with a snapshot to go back to, the panel shows it,
      rebuilds the name registry from it, reconciles it and saves it without
      recording; the move flag is cleared. With fewer than two snapshots
      nothing happens. */
  function OnUndo(deviceTypes: set<string>, p: Panel): (r: Option<Outcome>)
    requires Ready(p)
    ensures |p.coord.history| < 2 ==> r == Some(Outcome(p, false))
    ensures |p.coord.history| >= 2 ==>
              var h := p.coord.history;
              var back := h[|h| - 2];
              && Resolves(back)
              && (r.Some? <==> UpdateDataStoragePins(back).Some?)
              && (r.Some? ==>
                    && Ready(r.value.panel)
                    && r.value.panel.diagram == UpdateDataStoragePins(back).value
                    && r.value.panel.nameHash == UpdateNameHash(deviceTypes, back.blocks)
                    && r.value.panel.coord.history == h[..|h| - 1]
                    && !r.value.panel.coord.lastChangeMoveBlock
                    && (r.value.saveStarted <==> !p.coord.saving))
  {
    var u := UndoChange(p.coord);
    match u.restored
    case None => Some(Outcome(p, false))
    case Some(back) =>
      assert Resolves(p.coord.history[|p.coord.history| - 2]);
      match UpdateDataStoragePins(back)
      case None => None
      case Some(d2) =>
        assert AllResolve(u.state.history) by {
          forall k | 0 <= k < |u.state.history| ensures Resolves(u.state.history[k]) {
            assert u.state.history[k] == p.coord.history[k];
          }
        }
        Some(Outcome(p.(diagram := d2, coord := u.state, nameHash := UpdateNameHash(deviceTypes, back.blocks)),
                     u.saveStarted))
  }

  /** Undo right after a recorded action that did not overflow the history
      brings back the diagram from before it. */
  lemma UndoRevertsAction(deviceTypes: set<string>, p: Panel, d: Diagram, q: Panel)
    requires Ready(p) && Resolves(d) && 0 < |p.coord.history| < MaxSpecHistory
    requires !p.coord.lastChangeMoveBlock
    requires q == Save(p, d, false, true).panel
    requires UpdateDataStoragePins(p.coord.history[|p.coord.history| - 1]).Some?
    ensures var r := OnUndo(deviceTypes, q);
            && r.Some?
            && r.value.panel.diagram == UpdateDataStoragePins(p.coord.history[|p.coord.history| - 1]).value
            && r.value.panel.coord.history == p.coord.history
  {
    UndoAfterStore(p.coord.history, d);
  }

  /** One mouseMove while a block is grabbed, as the source behaves: the
      block's view goes where the clamped drag puts it (moveBlock's running
      check never fires, see Layout.RunningCheckIsDead); every other block,
      and the rest of the grabbed one, are unchanged. */
  function OnDragMove(p: Panel, g: Grab, pageX: int, pageY: int, holderX: int, holderY: int): (r: Panel)
    requires Ready(p)
    ensures Ready(r) && r.coord == p.coord && r.nameHash == p.nameHash
    ensures |r.diagram.blocks| == |p.diagram.blocks|
    ensures forall i :: 0 <= i < |p.diagram.blocks| && i != g.index ==>
              r.diagram.blocks[i] == p.diagram.blocks[i]
    ensures var pos := DragPosition(pageX, pageY, holderX, holderY, g.offsetX, g.offsetY);
            g.index < |p.diagram.blocks| ==>
              var b := p.diagram.blocks[g.index];
              r.diagram.blocks[g.index] == b.(view := b.view.(x := pos.0, y := pos.1))
    ensures g.index >= |p.diagram.blocks| ==> r == p
  {
    var pos := DragPosition(pageX, pageY, holderX, holderY, g.offsetX, g.offsetY);
    if g.index < |p.diagram.blocks| then
      var b := p.diagram.blocks[g.index];
      var d := p.diagram.(blocks := p.diagram.blocks[g.index := b.(view := b.view.(x := pos.0, y := pos.1))]);
      assert Resolves(d) by {
        forall bi, k | 0 <= bi < |d.blocks| && 0 <= k < |d.blocks[bi].pins| && d.blocks[bi].pins[k].source.Some?
          ensures d.blocks[bi].pins[k].source.value.block < |d.blocks|
        {
          assert d.blocks[bi].pins == p.diagram.blocks[bi].pins;
        }
      }
      p.(diagram := d)
    else p
  }

  /** The mouseMove drag with the evidently intended running check: while
      the run mode recorded by toggleRunProgramMode is on nothing moves;
      otherwise it is the drag the source performs. */
  function OnDragMoveIntended(p: Panel, g: Grab, pageX: int, pageY: int, holderX: int, holderY: int,
                              f: RunFlags): (r: Panel)
    requires Ready(p)
    ensures Ready(r)
    ensures f.propertyRunning ==> r == p
    ensures !f.propertyRunning ==> r == OnDragMove(p, g, pageX, pageY, holderX, holderY)
  {
    match MoveBlockIntended(f, DragPosition(pageX, pageY, holderX, holderY, g.offsetX, g.offsetY))
    case None => p
    case Some(_) => OnDragMove(p, g, pageX, pageY, holderX, holderY)
  }

  /** The drag flag mouseMove and mouseUp share is an undeclared implicit
      global, not the property set at construction. When the panel is built
      with `new`, that property lives on the panel and the global is None
      until mouseMove first assigns it while a block is grabbed. (Built by a
      plain call, the construction itself creates the global as false; that
      is the start value Some(false).) The construction site is not part of
      this model. */
  function DragMoveFlag(flag: Option<bool>, dragging: bool): (r: Option<bool>)
    ensures dragging ==> r == Some(true)
    ensures !dragging ==> r == flag
  {
    if dragging then Some(true) else flag
  }

  /** The flag after a series of mouseMove events, each with or without a
      grabbed block. */
  function AfterMoves(flag: Option<bool>, drags: seq<bool>): (r: Option<bool>)
    ensures (exists k :: 0 <= k < |drags| && drags[k]) ==> r.Some?
    ensures (forall k :: 0 <= k < |drags| ==> !drags[k]) ==> r == flag
  {
    if |drags| == 0 then flag
    else DragMoveFlag(AfterMoves(flag, drags[..|drags| - 1]), drags[|drags| - 1])
  }

  /** mouseUp as the source has it: with a block grabbed it reads the
      implicit global, which throws a ReferenceError (None) while it does not
      exist yet (possible only when the panel was built with `new`); a grabbed block that moved is recorded as a move, so a run
      of drags collapses into one history entry. */
  function OnMouseUp(p: Panel, dragging: bool, moved: Option<bool>): (r: Option<Outcome>)
    requires Ready(p)
    ensures r.None? <==> dragging && moved.None?
    ensures r.Some? ==> Ready(r.value.panel) && r.value.panel.diagram == p.diagram
    ensures r.Some? && !(dragging && moved == Some(true)) ==> r == Some(Outcome(p, false))
    ensures dragging && moved == Some(true) ==>
              && r.Some?
              && r.value.panel.coord.lastChangeMoveBlock
              && r.value.panel.coord.history == Store(p.coord.history, p.diagram, p.coord.lastChangeMoveBlock)
              && (r.value.saveStarted <==> !p.coord.saving)
  {
    if !dragging then Some(Outcome(p, false))
    else match moved
      case None => None
      case Some(m) => if m then Some(Save(p, p.diagram, true, true)) else Some(Outcome(p, false))
  }

  /** mouseUp as evidently intended: it reads the drag flag the panel
      declares and sets to false at construction, so it never throws. */
  function OnMouseUpIntended(p: Panel, dragging: bool, moved: bool): (r: Outcome)
    requires Ready(p)
    ensures Ready(r.panel) && r.panel.diagram == p.diagram
    ensures !(dragging && moved) ==> r == Outcome(p, false)
    ensures dragging && moved ==>
              && r.panel.coord.lastChangeMoveBlock
              && r.panel.coord.history == Store(p.coord.history, p.diagram, p.coord.lastChangeMoveBlock)
              && (r.saveStarted <==> !p.coord.saving)
  {
    if dragging && moved then Save(p, p.diagram, true, true) else Outcome(p, false)
  }

  /** For a panel built with `new` (the global starts absent), pressing on
      a block and releasing it before any mouseMove has dragged a block
      throws: the global does not exist yet. */
  lemma ReleaseBeforeFirstDragThrows(p: Panel, drags: seq<bool>)
    requires Ready(p)
    requires forall k :: 0 <= k < |drags| ==> !drags[k]
    ensures OnMouseUp(p, true, AfterMoves(None, drags)).None?
  {
  }

  /** With the declared flag, a release without a move records and saves
      nothing; once the global exists (always, for a panel built by a plain
      call) the two versions agree. */
  lemma IntendedReleaseIsQuiet(p: Panel, dragging: bool, moved: bool)
    requires Ready(p)
    ensures OnMouseUpIntended(p, true, false) == Outcome(p, false)
    ensures OnMouseUp(p, dragging, Some(moved)) == Some(OnMouseUpIntended(p, dragging, moved))
  {
  }

  /** Two drags in a row leave one history entry: the second overwrites the
      first's snapshot. */
  lemma TwoDragsOneEntry(p: Panel, d1: Diagram, d2: Diagram)
    requires Ready(p) && Resolves(d1) && Resolves(d2) && !p.coord.lastChangeMoveBlock
    ensures var q := OnMouseUp(p.(diagram := d1), true, Some(true)).value.panel;
            OnMouseUp(q.(diagram := d2), true, Some(true)).value.panel.coord.history == Store(p.coord.history, d2, false)
  {
    StoreOverwritesLast(p.coord.history, d1, d2);
  }

  /** The data-storage block addDataStorageBlock creates: one free input, an
      input count of one, an empty label map, placed at (35, 35) plus the
      placement offsets. The id comes from createFlowBlock, which is not part
      of this model, and the size from the display. */
  function NewDataStorageBlock(d: Diagram, name: string, id: nat, w: int, h: int): (b: Block)
    ensures IsDataStorage(b) && b.pins == [Pin(true, None)] && b.inputCount == 1
    ensures b.sequenceNames == Some(map[]) && b.name == name
    ensures b.view.x == 35 + NewBlockXOffset(|d.blocks|) && b.view.y == 35 + NewBlockYOffset(|d.blocks|)
  {
    Block(id, DataStorageType, name, [Pin(true, None)], 1, Some(map[]), None,
          View(35 + NewBlockXOffset(|d.blocks|), 35 + NewBlockYOffset(|d.blocks|), w, h))
  }

  /** addDataStorageBlock: refused (an alert, the handler returns false) when
      the diagram already has a data-storage block; otherwise the new block
      is appended under a unique name and the program is saved. */
  function OnAddDataStorageBlock(p: Panel, id: nat, w: int, h: int): (r: Option<Outcome>)
    requires Ready(p)
    ensures r.None? <==> !NoDataStorage(p.diagram)
    ensures r.Some? ==>
              var d := r.value.panel.diagram;
              && Ready(r.value.panel)
              && d.blocks == p.diagram.blocks + [NewDataStorageBlock(p.diagram, GetUniqueName(p.nameHash, DataStorageType), id, w, h)]
              && r.value.panel.coord.history == Store(p.coord.history, d, false)
              && (r.value.saveStarted <==> !p.coord.saving)
  {
    if !NoDataStorage(p.diagram) then None
    else
      var b := NewDataStorageBlock(p.diagram, GetUniqueName(p.nameHash, DataStorageType), id, w, h);
      var d := Diagram(p.diagram.blocks + [b]);
      assert Resolves(d) by {
        forall bi, k | 0 <= bi < |d.blocks| && 0 <= k < |d.blocks[bi].pins| && d.blocks[bi].pins[k].source.Some?
          ensures d.blocks[bi].pins[k].source.value.block < |d.blocks|
        {
          assert bi < |p.diagram.blocks|;
          assert d.blocks[bi] == p.diagram.blocks[bi];
        }
      }
      Some(Save(p, d, false, true))
  }

  /** The block added is the diagram's only data-storage block and is in
      shape; a well-linked diagram stays well linked. */
  lemma AddedStorageBlockInShape(p: Panel, id: nat, w: int, h: int)
    requires Ready(p) && NoDataStorage(p.diagram)
    ensures var d := OnAddDataStorageBlock(p, id, w, h).value.panel.diagram;
            var s := |p.diagram.blocks|;
            && OnlyDataStorage(d, s)
            && StorageInvariant(d, s)
            && (WellLinked(p.diagram) ==> WellLinked(d))
  {
    var d := OnAddDataStorageBlock(p, id, w, h).value.panel.diagram;
    var s := |p.diagram.blocks|;
    assert forall j :: 0 <= j < s ==> d.blocks[j] == p.diagram.blocks[j];
    assert SourceIds(d, d.blocks[s].pins) == {};
    if WellLinked(p.diagram) {
      forall bi, k | 0 <= bi < |d.blocks| && 0 <= k < |d.blocks[bi].pins|
        ensures PinLinked(d, d.blocks[bi].pins[k])
      {
        if bi < s {
          assert PinLinked(p.diagram, p.diagram.blocks[bi].pins[k]);
          var q := d.blocks[bi].pins[k].source;
          if q.Some? {
            assert PinAt(d, q.value) == PinAt(p.diagram, q.value);
          }
        }
      }
    }
  }

  /** A second data-storage block is always refused. */
  lemma SecondStorageBlockRefused(p: Panel, id: nat, w: int, h: int, id2: nat, w2: int, h2: int)
    requires Ready(p) && NoDataStorage(p.diagram)
    ensures var q := OnAddDataStorageBlock(p, id, w, h).value.panel;
            OnAddDataStorageBlock(q, id2, w2, h2).None?
  {
    var q := OnAddDataStorageBlock(p, id, w, h).value.panel;
    assert IsDataStorage(q.diagram.blocks[|p.diagram.blocks|]);
  }

  /** loadProgram: a missing program becomes an empty one; a missing or empty
      name becomes a date-time name "program_…" (the clock reading `now` is
      given). Device and timer blocks lose stored values, the registry is
      rebuilt, the diagram reconciled, and the history restarts with it. */
  function OnLoad(deviceTypes: set<string>, p: Panel, program: Option<Diagram>, name: Option<string>,
                  now: DateTime): (r: Option<Panel>)
    requires program.Some? ==> Resolves(program.value)
    ensures r.Some? ==>
              var q := r.value;
              && Ready(q)
              && q.coord.history == [q.diagram]
              && !q.coord.lastChangeMoveBlock
              && q.coord.saving == p.coord.saving && q.coord.saveAgain == p.coord.saveAgain
              && (program.None? || name.None? || name == Some("") ==>
                    q.programName == CreateDateTimeName("program_", now))
              && (program.Some? && name.Some? && name != Some("") ==> q.programName == name.value)
              && forall i :: 0 <= i < |q.diagram.blocks| && Registered(deviceTypes, q.diagram.blocks[i].blockType) ==>
                   q.diagram.blocks[i].value.None?
    ensures program.None? ==> r == Some(Panel(Diagram([]), CreateDateTimeName("program_", now),
                                              LoadProgram(p.coord, Diagram([])), map[]))
    ensures program.Some? ==>
              var cleared := ClearRegisteredValues(deviceTypes, program.value);
              && (r.Some? <==> UpdateDataStoragePins(cleared).Some?)
              && (r.Some? ==>
                    && r.value.diagram == UpdateDataStoragePins(cleared).value
                    && r.value.nameHash == UpdateNameHash(deviceTypes, cleared.blocks))
  {
    var d := if program.Some? then program.value else Diagram([]);
    var programName := if program.Some? && name.Some? && name != Some("") then name.value
                       else CreateDateTimeName("program_", now);
    var cleared := ClearRegisteredValues(deviceTypes, d);
    match UpdateDataStoragePins(cleared)
    case None => None
    case Some(d2) =>
      ReconcileKeepsValues(cleared, 0, false);
      Some(Panel(d2, programName, LoadProgram(p.coord, d2), UpdateNameHash(deviceTypes, cleared.blocks)))
  }

  /** Right after a load there is nothing to undo: the history holds the
      loaded program only, so undoChange leaves the panel as it is. */
  lemma UndoAfterLoadDoesNothing(deviceTypes: set<string>, p: Panel, program: Option<Diagram>,
                                 name: Option<string>, now: DateTime)
    requires program.Some? ==> Resolves(program.value)
    requires OnLoad(deviceTypes, p, program, name, now).Some?
    ensures var q := OnLoad(deviceTypes, p, program, name, now).value;
            OnUndo(deviceTypes, q) == Some(Outcome(q, false))
  {
  }

  /** The loop of loadProgram that nulls the value of device and timer blocks. */
  function ClearRegisteredValues(deviceTypes: set<string>, d: Diagram): (r: Diagram)
    requires Resolves(d)
    ensures Resolves(r) && |r.blocks| == |d.blocks|
    ensures forall i :: 0 <= i < |d.blocks| ==>
              r.blocks[i] == if Registered(deviceTypes, d.blocks[i].blockType)
                             then d.blocks[i].(value := None) else d.blocks[i]
  {
    var r := Diagram(seq(|d.blocks|, i requires 0 <= i < |d.blocks| =>
      var b := d.blocks[i];
      if Registered(deviceTypes, b.blockType) then b.(value := None) else b));
    assert forall i :: 0 <= i < |d.blocks| ==> r.blocks[i].pins == d.blocks[i].pins;
    r
  }
}

=== FILE: graph.dfy ===
/** The diagram as the editor panel sees it: blocks with ordered pins, and
    connections stored on input pins as a reference to the upstream output
    pin (`sourcePin`). JavaScript object references become indices: a pin is
    named by the index of its block in the diagram and its index in the
    block's pin list. */
module Graph {
  import opened Wrappers

  const DataStorageType: string := "data storage"
  const TimerType: string := "timer"

  datatype PinRef = PinRef(block: nat, pin: nat)

  /** `source` is the pin's sourcePin; None is null (unconnected). */
  datatype Pin = Pin(isInput: bool, source: Option<PinRef>)

  /** Position and size of a block on the canvas, in pixels. */
  datatype View = View(x: int, y: int, w: int, h: int)

  /** A block. `inputCount` is the block's declared input arity;
      `sequenceNames` is the value of a data-storage block's
      `sequence_names` parameter (source block id to label), None when the
      block has no such parameter; `value` is the last value, None for null. */
  datatype Block = Block(
    id: nat,
    blockType: string,
    name: string,
    pins: seq<Pin>,
    inputCount: nat,
    sequenceNames: Option<map<nat, string>>,
    value: Option<real>,
    view: View)

  datatype Diagram = Diagram(blocks: seq<Block>)

  predicate ValidRef(d: Diagram, r: PinRef) {
    r.block < |d.blocks| && r.pin < |d.blocks[r.block].pins|
  }

  function PinAt(d: Diagram, r: PinRef): Pin
    requires ValidRef(d, r)
  {
    d.blocks[r.block].pins[r.pin]
  }

  /** A connected pin is an input whose source is an output pin of the diagram. */
  predicate PinLinked(d: Diagram, p: Pin) {
    p.source.Some? ==>
      p.isInput && ValidRef(d, p.source.value) && !PinAt(d, p.source.value).isInput
  }

  /** Every connection of the diagram runs from an output pin into an input pin. */
  predicate WellLinked(d: Diagram) {
    forall b, k :: 0 <= b < |d.blocks| && 0 <= k < |d.blocks[b].pins| ==>
      PinLinked(d, d.blocks[b].pins[k])
  }

  /** d' differs from d at most in the source of pin r. */
  predicate OnlySourceChanged(d: Diagram, d': Diagram, r: PinRef)
    requires ValidRef(d, r)
  {
    && |d'.blocks| == |d.blocks|
    && (forall b :: 0 <= b < |d.blocks| && b != r.block ==> d'.blocks[b] == d.blocks[b])
    && d'.blocks[r.block].(pins := d.blocks[r.block].pins) == d.blocks[r.block]
    && |d'.blocks[r.block].pins| == |d.blocks[r.block].pins|
    && (forall k :: 0 <= k < |d.blocks[r.block].pins| && k != r.pin ==>
          d'.blocks[r.block].pins[k] == d.blocks[r.block].pins[k])
    && d'.blocks[r.block].pins[r.pin].isInput == d.blocks[r.block].pins[r.pin].isInput
  }

  /** Set (or clear, with None) the sourcePin of pin r. */
  function SetSource(d: Diagram, r: PinRef, src: Option<PinRef>): (d': Diagram)
    requires ValidRef(d, r)
    ensures ValidRef(d', r) && PinAt(d', r).source == src
    ensures OnlySourceChanged(d, d', r)
  {
    var b := d.blocks[r.block];
    var p := b.pins[r.pin];
    d.(blocks := d.blocks[r.block := b.(pins := b.pins[r.pin := p.(source := src)])])
  }

  /** Changing one pin's source keeps the other pins' links valid; the pin
      itself stays linked if it is an input given an output source, or cleared. */
  lemma SetSourceKeepsWellLinked(d: Diagram, r: PinRef, src: Option<PinRef>)
    requires WellLinked(d) && ValidRef(d, r)
    requires src.Some? ==> PinAt(d, r).isInput && ValidRef(d, src.value) && !PinAt(d, src.value).isInput
    ensures WellLinked(SetSource(d, r, src))
  {
    var d' := SetSource(d, r, src);
    forall b, k | 0 <= b < |d'.blocks| && 0 <= k < |d'.blocks[b].pins|
      ensures PinLinked(d', d'.blocks[b].pins[k])
    {
      var p := d'.blocks[b].pins[k];
      if p.source.Some? && (b != r.block || k != r.pin) {
        assert PinLinked(d, d.blocks[b].pins[k]);
        var q := p.source.value;
        assert ValidRef(d', q);
        assert PinAt(d', q).isInput == PinAt(d, q).isInput;
      }
    }
  }

  predicate IsDataStorage(b: Block) {
    b.blockType == DataStorageType
  }

  /** The diagram holds no data-storage block. */
  predicate NoDataStorage(d: Diagram) {
    forall j :: 0 <= j < |d.blocks| ==> !IsDataStorage(d.blocks[j])
  }

  /** Block s is the diagram's only data-storage block. */
  predicate OnlyDataStorage(d: Diagram, s: nat) {
    s < |d.blocks| && IsDataStorage(d.blocks[s])
    && forall j :: 0 <= j < |d.blocks| && j != s ==> !IsDataStorage(d.blocks[j])
  }
}

=== FILE: history.dfy ===
/** The editor's undo history: a bounded sequence of program snapshots whose
    last entry is the current state (storeProgramState / undoChange). */
module History {

  /** Capacity of the history; the newest entry is the current state, so at
      most MaxSpecHistory - 1 undos are possible. */
  const MaxSpecHistory: nat := 11

  predicate Bounded<S>(h: seq<S>) {
    |h| <= MaxSpecHistory
  }

  /** Record a snapshot. With `overwrite` the last entry is replaced, otherwise
      the snapshot is appended; an overflow then drops the oldest entry. An
      overwrite of an empty history writes index -1 of a JavaScript array,
      which leaves the array empty. */
  function Store<S>(h: seq<S>, snap: S, overwrite: bool): (r: seq<S>)
    ensures Bounded(h) ==> Bounded(r)
    ensures overwrite && |h| == 0 ==> r == h
    ensures overwrite && 0 < |h| <= MaxSpecHistory ==>
              |r| == |h| && r[..|r| - 1] == h[..|h| - 1] && r[|r| - 1] == snap
    ensures !overwrite && |h| < MaxSpecHistory ==> r == h + [snap]
    ensures !overwrite && |h| == MaxSpecHistory ==>
              |r| == |h| && r[..|r| - 1] == h[1..] && r[|r| - 1] == snap
  {
    var written := if !overwrite then h + [snap]
                   else if |h| == 0 then h
                   else h[..|h| - 1] + [snap];
    if |written| > MaxSpecHistory then written[1..] else written
  }

  datatype UndoResult<S> = NothingToUndo | Restored(history: seq<S>, state: S)

  /** Undo: with fewer than two entries nothing happens; otherwise the current
      (last) entry is dropped and the one before it is the state to restore. */
  function Undo<S>(h: seq<S>): (r: UndoResult<S>)
    ensures r.NothingToUndo? <==> |h| < 2
    ensures r.Restored? ==> |r.history| == |h| - 1 && r.history == h[..|h| - 1]
    ensures r.Restored? ==> r.state == h[|h| - 2] && r.history[|r.history| - 1] == r.state
  {
    if |h| < 2 then NothingToUndo else Restored(h[..|h| - 1], h[|h| - 2])
  }

  /** Undo is the inverse of appending a snapshot that caused no eviction:
      the previous history comes back and its last entry is restored. */
  lemma UndoAfterStore<S>(h: seq<S>, snap: S)
    requires 0 < |h| < MaxSpecHistory
    ensures Undo(Store(h, snap, false)) == Restored(h, h[|h| - 1])
  {
    assert (h + [snap])[..|h|] == h;
  }

  /** Number of consecutive successful undos starting from h. */
  function UndoDepth<S>(h: seq<S>): (n: nat)
    decreases |h|
  {
    match Undo(h)
    case NothingToUndo => 0
    case Restored(rest, _) => 1 + UndoDepth(rest)
  }

  /** From a non-empty history exactly |h| - 1 undos succeed, so a bounded
      history allows at most MaxSpecHistory - 1 of them. */
  lemma {:induction false} UndoDepthIsLengthMinusOne<S>(h: seq<S>)
    ensures |h| >= 1 ==> UndoDepth(h) == |h| - 1
    ensures Bounded(h) ==> UndoDepth(h) <= MaxSpecHistory - 1
    decreases |h|
  {
    if |h| >= 2 {
      UndoDepthIsLengthMinusOne(h[..|h| - 1]);
    }
  }

  /** Storing any sequence of snapshots keeps the history bounded. */
  function StoreAll<S>(h: seq<S>, snaps: seq<S>): (r: seq<S>)
    decreases |snaps|
  {
    if |snaps| == 0 then h else StoreAll(Store(h, snaps[0], false), snaps[1..])
  }

  /** Appending a run of snapshots keeps the history bounded and holds
      the newest MaxSpecHistory entries of the combined sequence. */
  lemma {:induction false} StoreAllKeepsNewest<S>(h: seq<S>, snaps: seq<S>)
    requires Bounded(h)
    ensures |h| + |snaps| <= MaxSpecHistory ==> StoreAll(h, snaps) == h + snaps
    ensures |h| + |snaps| >= MaxSpecHistory ==>
              StoreAll(h, snaps) == (h + snaps)[|h| + |snaps| - MaxSpecHistory..]
    decreases |snaps|
  {
    if |snaps| > 0 {
      var h' := Store(h, snaps[0], false);
      var r := StoreAll(h', snaps[1..]);
      assert StoreAll(h, snaps) == r;
      StoreAllKeepsNewest(h', snaps[1..]);
      if |h| < MaxSpecHistory {
        GrowingStep(h, snaps, h', r);
      } else {
        FullStep(h, snaps, h', r);
      }
    }
  }

  /** The step of StoreAllKeepsNewest when the first append evicts nothing. */
  lemma GrowingStep<S>(h: seq<S>, snaps: seq<S>, h': seq<S>, r: seq<S>)
    requires |h| < MaxSpecHistory && |snaps| > 0 && h' == h + [snaps[0]]
    requires |h'| + |snaps| - 1 <= MaxSpecHistory ==> r == h' + snaps[1..]
    requires |h'| + |snaps| - 1 >= MaxSpecHistory ==> r == (h' + snaps[1..])[|h'| + |snaps| - 1 - MaxSpecHistory..]
    ensures |h| + |snaps| <= MaxSpecHistory ==> r == h + snaps
    ensures |h| + |snaps| >= MaxSpecHistory ==> r == (h + snaps)[|h| + |snaps| - MaxSpecHistory..]
  {
    assert h' + snaps[1..] == h + snaps;
  }

  /** The step of StoreAllKeepsNewest when the first append evicts the oldest entry. */
  lemma FullStep<S>(h: seq<S>, snaps: seq<S>, h': seq<S>, r: seq<S>)
    requires |h| == MaxSpecHistory && |snaps| > 0 && h' == h[1..] + [snaps[0]]
    requires |h'| + |snaps| - 1 >= MaxSpecHistory ==> r == (h' + snaps[1..])[|h'| + |snaps| - 1 - MaxSpecHistory..]
    ensures r == (h + snaps)[|h| + |snaps| - MaxSpecHistory..]
  {
    var all := h + snaps;
    assert h' + snaps[1..] == all[1..];
    SliceOfTail(all, |snaps|);
  }

  lemma SliceOfTail<S>(all: seq<S>, k: nat)
    requires 1 <= k <= |all|
    ensures all[1..][k - 1..] == all[k..]
  {
  }

  /** After at least MaxSpecHistory appends the history holds exactly the
      newest MaxSpecHistory snapshots, whatever it held before. */
  lemma StoreAllForgetsOld<S>(h: seq<S>, snaps: seq<S>)
    requires Bounded(h) && |snaps| >= MaxSpecHistory
    ensures StoreAll(h, snaps) == snaps[|snaps| - MaxSpecHistory..]
  {
    StoreAllKeepsNewest(h, snaps);
    assert (h + snaps)[|h| + |snaps| - MaxSpecHistory..] == snaps[|snaps| - MaxSpecHistory..];
  }
}

=== FILE: layout.dfy ===
/** Canvas geometry of the editor: where a new block is placed, how a drag
    follows the pointer without leaving the canvas, and which block a press
    picks up. Coordinates are whole pixels. */
module Layout {
  import opened Wrappers
  import opened Graph

  /** The placement cycle: 4 columns of 18 blocks each. */
  const PlacementCycle: nat := 72
  const ColumnLength: nat := 18

  /** The block count reduced into the cycle, as both offsets do it. */
  function CycleIndex(count: nat): (n: nat)
    ensures n < PlacementCycle && n == count % PlacementCycle
  {
    if count >= PlacementCycle then count % PlacementCycle else count
  }

  /** newBlockXOffset, for a diagram that already has `count` blocks: 250
      pixels per column, 5 per row. */
  function NewBlockXOffset(count: nat): (x: nat)
    ensures x <= 3 * 250 + 17 * 5
    ensures x % 5 == 0
  {
    var n := CycleIndex(count);
    (n / ColumnLength) * 250 + (n % ColumnLength) * 5
  }

  /** newBlockYOffset, for a diagram that already has `count` blocks: 35
      pixels per row. */
  function NewBlockYOffset(count: nat): (y: nat)
    ensures y <= 17 * 35
    ensures y % 35 == 0
  {
    (CycleIndex(count) % ColumnLength) * 35
  }

  /** The placement repeats after 72 blocks. */
  lemma OffsetsRepeat(count: nat)
    ensures NewBlockXOffset(count + PlacementCycle) == NewBlockXOffset(count)
    ensures NewBlockYOffset(count + PlacementCycle) == NewBlockYOffset(count)
  {
    var q := count / PlacementCycle;
    var n := count % PlacementCycle;
    assert count + PlacementCycle == (q + 1) * PlacementCycle + n;
    assert CycleIndex(count + PlacementCycle) == n;
  }

  /** Within one cycle no two blocks are placed at the same offset. */
  lemma OffsetsDistinct(a: nat, b: nat)
    requires a < PlacementCycle && b < PlacementCycle && a != b
    ensures NewBlockXOffset(a) != NewBlockXOffset(b) || NewBlockYOffset(a) != NewBlockYOffset(b)
  {
    if NewBlockYOffset(a) == NewBlockYOffset(b) {
      assert a % 18 == b % 18;
      assert a / 18 != b / 18 by {
        assert a == (a / 18) * 18 + a % 18;
        assert b == (b / 18) * 18 + b % 18;
      }
    }
  }

  /** The block position a drag produces (the x and y mouseMove hands to
      moveBlock), for a pointer at page position (pageX, pageY), a canvas at
      page offset (holderX, holderY), and the grab offset of the block
      (offsetX, offsetY): the block's corner follows the pointer but never
      leaves the canvas to the left or above. */
  function DragPosition(pageX: int, pageY: int, holderX: int, holderY: int,
                        offsetX: int, offsetY: int): (r: (int, int))
    ensures r.0 >= 0 && r.1 >= 0
    ensures pageX + offsetX >= holderX ==> r.0 == pageX + offsetX - holderX
    ensures pageY + offsetY >= holderY ==> r.1 == pageY + offsetY - holderY
    ensures pageX + offsetX < holderX ==> r.0 == 0
    ensures pageY + offsetY < holderY ==> r.1 == 0
  {
    var x := if pageX + offsetX < holderX then holderX - offsetX else pageX;
    var y := if pageY + offsetY < holderY then holderY - offsetY else pageY;
    (x - holderX + offsetX, y - holderY + offsetY)
  }

  /** A drag moves the block with the pointer: two pointer positions that
      keep the block on the canvas move it by the pointer's displacement. */
  lemma DragFollowsPointer(p1x: int, p1y: int, p2x: int, p2y: int, holderX: int, holderY: int,
                           offsetX: int, offsetY: int)
    requires p1x + offsetX >= holderX && p1y + offsetY >= holderY
    requires p2x + offsetX >= holderX && p2y + offsetY >= holderY
    ensures var a := DragPosition(p1x, p1y, holderX, holderY, offsetX, offsetY);
            var b := DragPosition(p2x, p2y, holderX, holderY, offsetX, offsetY);
            b.0 - a.0 == p2x - p1x && b.1 - a.1 == p2y - p1y
  {
  }

  /** The two run flags of the panel: the closure variable that moveBlock
      tests, and the object property that toggleRunProgramMode writes. Both
      start false. */
  datatype RunFlags = RunFlags(closureRunning: bool, propertyRunning: bool)

  const PanelStart := RunFlags(false, false)

  /** toggleRunProgramMode: records the mode on the object property only. */
  function ToggleRunProgramMode(f: RunFlags, running: bool): (r: RunFlags)
    ensures r.propertyRunning == running
    ensures r.closureRunning == f.closureRunning
  {
    f.(propertyRunning := running)
  }

  /** A series of run-mode switches, in order. */
  function ToggleAll(f: RunFlags, modes: seq<bool>): (r: RunFlags)
    ensures r.closureRunning == f.closureRunning
    ensures |modes| > 0 ==> r.propertyRunning == modes[|modes| - 1]
    ensures |modes| == 0 ==> r == f
  {
    if |modes| == 0 then f else ToggleRunProgramMode(ToggleAll(f, modes[..|modes| - 1]), modes[|modes| - 1])
  }

  /** moveBlock as written: it refuses only when the closure variable is
      set; otherwise the block goes to `pos`. */
  function MoveBlockAsWritten(f: RunFlags, pos: (int, int)): (r: Option<(int, int)>)
    ensures r.None? <==> f.closureRunning
    ensures r.Some? ==> r.value == pos
  {
    if f.closureRunning then None else Some(pos)
  }

  /** moveBlock as evidently intended: it refuses while the run mode that
      toggleRunProgramMode records is on. */
  function MoveBlockIntended(f: RunFlags, pos: (int, int)): (r: Option<(int, int)>)
    ensures r.None? <==> f.propertyRunning
    ensures r.Some? ==> r.value == pos
  {
    if f.propertyRunning then None else Some(pos)
  }

  /** The running check of moveBlock never fires: whatever run-mode switches
      happened since the panel was built, the block still moves, even right
      after toggleRunProgramMode(true). */
  lemma RunningCheckIsDead(modes: seq<bool>, pos: (int, int))
    ensures MoveBlockAsWritten(ToggleAll(PanelStart, modes), pos) == Some(pos)
    ensures MoveBlockAsWritten(ToggleRunProgramMode(PanelStart, true), pos) == Some(pos)
  {
  }

  /** With the intended check, a drag is refused exactly while the last
      run-mode switch turned running on. */
  lemma RunningStopsIntendedMove(modes: seq<bool>, pos: (int, int))
    ensures MoveBlockIntended(ToggleAll(PanelStart, modes), pos).None? <==>
              |modes| > 0 && modes[|modes| - 1]
    ensures MoveBlockIntended(ToggleRunProgramMode(PanelStart, true), pos).None?
  {
  }

  /** The blockMouseDown test: the point lies in the block's rectangle,
      edges included. */
  predicate Hits(v: View, x: int, y: int) {
    v.x <= x <= v.x + v.w && v.y <= y <= v.y + v.h
  }

  /** The block a press picks up and the grab offset (block corner minus
      pointer). */
  datatype Grab = Grab(index: nat, offsetX: int, offsetY: int)

  /** blockMouseDown: every block is checked in order and each hit replaces
      the previous one, so the last block (the one drawn on top) under the
      pointer is grabbed. None when no block is hit; the source then leaves
      its current drag block as it was. */
  method BlockMouseDown(d: Diagram, pageX: int, pageY: int, holderX: int, holderY: int) returns (g: Option<Grab>)
    ensures var x := pageX - holderX;
            var y := pageY - holderY;
            && (g.None? <==> forall i :: 0 <= i < |d.blocks| ==> !Hits(d.blocks[i].view, x, y))
            && (g.Some? ==>
                  && g.value.index < |d.blocks|
                  && Hits(d.blocks[g.value.index].view, x, y)
                  && (forall j :: g.value.index < j < |d.blocks| ==> !Hits(d.blocks[j].view, x, y))
                  && g.value.offsetX == d.blocks[g.value.index].view.x - x
                  && g.value.offsetY == d.blocks[g.value.index].view.y - y)
    ensures g.None? <==> TopHit(d.blocks, pageX - holderX, pageY - holderY).None?
    ensures g.Some? ==> TopHit(d.blocks, pageX - holderX, pageY - holderY) == Some(g.value.index)
  {
    var x := pageX - holderX;
    var y := pageY - holderY;
    g := None;
    var i := 0;
    while i < |d.blocks|
      invariant 0 <= i <= |d.blocks|
      invariant g.None? <==> forall j :: 0 <= j < i ==> !Hits(d.blocks[j].view, x, y)
      invariant g.Some? ==>
                  && g.value.index < i
                  && Hits(d.blocks[g.value.index].view, x, y)
                  && (forall j :: g.value.index < j < i ==> !Hits(d.blocks[j].view, x, y))
                  && g.value.offsetX == d.blocks[g.value.index].view.x - x
                  && g.value.offsetY == d.blocks[g.value.index].view.y - y
    {
      var v := d.blocks[i].view;
      if x >= v.x && x <= v.x + v.w && y >= v.y && y <= v.y + v.h {
        g := Some(Grab(i, v.x - x, v.y - y));
      }
      i := i + 1;
    }
    TopHitIsLastHit(d.blocks, x, y);
  }

  /** An independent reading of the press: scanning down from the block
      drawn last, the first block whose rectangle holds the point. */
  function TopHit(blocks: seq<Block>, x: int, y: int): (r: Option<nat>)
    ensures r.Some? ==> r.value < |blocks|
    decreases |blocks|
  {
    if |blocks| == 0 then None
    else if Hits(blocks[|blocks| - 1].view, x, y) then Some(|blocks| - 1)
    else TopHit(blocks[..|blocks| - 1], x, y)
  }

  /** TopHit finds block i exactly when i is hit and no later block is. */
  lemma {:induction false} TopHitIsLastHit(blocks: seq<Block>, x: int, y: int)
    ensures TopHit(blocks, x, y).None? <==> forall i :: 0 <= i < |blocks| ==> !Hits(blocks[i].view, x, y)
    ensures forall i :: 0 <= i < |blocks| ==>
              (TopHit(blocks, x, y) == Some(i) <==>
                 Hits(blocks[i].view, x, y) && forall j :: i < j < |blocks| ==> !Hits(blocks[j].view, x, y))
    decreases |blocks|
  {
    if |blocks| > 0 {
      var n := |blocks| - 1;
      TopHitIsLastHit(blocks[..n], x, y);
      assert forall i :: 0 <= i < n ==> blocks[..n][i] == blocks[i];
    }
  }
}

=== FILE: names.dfy ===
/** The name registry the editor keeps for sensor and timer blocks
    (`nameHash`), and the unique names it hands out to new blocks. */
module Names {
  import opened Decimal
  import opened Graph

  /** The blocks the registry covers: devices (DEVICE_BLOCKS, given here as a
      set of type names) and timers. */
  predicate Registered(deviceTypes: set<string>, t: string) {
    t in deviceTypes || t == TimerType
  }

  /** Block i is the last registered block named `name`. */
  predicate LastNamed(deviceTypes: set<string>, blocks: seq<Block>, name: string, i: nat) {
    && i < |blocks|
    && blocks[i].name == name
    && Registered(deviceTypes, blocks[i].blockType)
    && forall j :: i < j < |blocks| && Registered(deviceTypes, blocks[j].blockType) ==> blocks[j].name != name
  }

  /** Some registered block among `blocks` carries `name`. */
  predicate NameInUse(deviceTypes: set<string>, blocks: seq<Block>, name: string) {
    exists i :: 0 <= i < |blocks| && Registered(deviceTypes, blocks[i].blockType) && blocks[i].name == name
  }

  /** updateNameHash: the map from the name of every registered block to that
      block (here: its index). Blocks are visited in order, so when two
      registered blocks share a name the later one is kept. */
  function UpdateNameHash(deviceTypes: set<string>, blocks: seq<Block>): (h: map<string, nat>)
    ensures forall name :: name in h <==> NameInUse(deviceTypes, blocks, name)
    ensures forall name :: name in h ==> LastNamed(deviceTypes, blocks, name, h[name])
    decreases |blocks|
  {
    if blocks == [] then map[]
    else
      var n := |blocks| - 1;
      var h := UpdateNameHash(deviceTypes, blocks[..n]);
      NameInUseSnoc(deviceTypes, blocks);
      LastNamedSnoc(deviceTypes, blocks, h);
      if Registered(deviceTypes, blocks[n].blockType) then h[blocks[n].name := n] else h
  }

  /** A name is in use in `blocks` iff it is in use before the last block or
      the last block is registered under it. */
  lemma NameInUseSnoc(deviceTypes: set<string>, blocks: seq<Block>)
    requires blocks != []
    ensures var n := |blocks| - 1;
            forall name :: NameInUse(deviceTypes, blocks, name) <==>
              NameInUse(deviceTypes, blocks[..n], name) ||
              (Registered(deviceTypes, blocks[n].blockType) && blocks[n].name == name)
  {
    var n := |blocks| - 1;
    forall name | NameInUse(deviceTypes, blocks[..n], name) ensures NameInUse(deviceTypes, blocks, name) {
      var i :| 0 <= i < n && Registered(deviceTypes, blocks[..n][i].blockType) && blocks[..n][i].name == name;
      assert blocks[i] == blocks[..n][i];
    }
    forall name | NameInUse(deviceTypes, blocks, name) && !(Registered(deviceTypes, blocks[n].blockType) && blocks[n].name == name)
      ensures NameInUse(deviceTypes, blocks[..n], name)
    {
      var i :| 0 <= i < |blocks| && Registered(deviceTypes, blocks[i].blockType) && blocks[i].name == name;
      assert i != n;
      assert blocks[..n][i] == blocks[i];
    }
  }

  /** Adding a block at the end keeps the last-named index of every other
      name; a registered last block becomes the last of its own name. */
  lemma LastNamedSnoc(deviceTypes: set<string>, blocks: seq<Block>, h: map<string, nat>)
    requires blocks != []
    requires forall name :: name in h ==> LastNamed(deviceTypes, blocks[..|blocks| - 1], name, h[name])
    ensures var n := |blocks| - 1;
            && (Registered(deviceTypes, blocks[n].blockType) ==> LastNamed(deviceTypes, blocks, blocks[n].name, n))
            && forall name :: name in h && (name != blocks[n].name || !Registered(deviceTypes, blocks[n].blockType)) ==>
                 LastNamed(deviceTypes, blocks, name, h[name])
  {
    var n := |blocks| - 1;
    forall name | name in h && (name != blocks[n].name || !Registered(deviceTypes, blocks[n].blockType))
      ensures LastNamed(deviceTypes, blocks, name, h[name])
    {
      var i := h[name];
      assert LastNamed(deviceTypes, blocks[..n], name, i);
      assert blocks[i] == blocks[..n][i];
      forall j | i < j < |blocks| && Registered(deviceTypes, blocks[j].blockType) ensures blocks[j].name != name {
        if j < n {
          assert blocks[j] == blocks[..n][j];
        }
      }
    }
  }

  /** getUniqueName: the name itself when no registered block has it, else
      the name followed by a space and the smallest counter from 2 on that
      is free. */
  function GetUniqueName(hash: map<string, nat>, name: string): (r: string)
    ensures r !in hash
    ensures name !in hash ==> r == name
    ensures name in hash ==>
              exists k :: 2 <= k && r == Numbered(name + " ", k) &&
                forall j :: 2 <= j < k ==> Numbered(name + " ", j) in hash
  {
    if name !in hash then name
    else Numbered(name + " ", FirstFreeCounter(hash.Keys, name + " ", 2))
  }

  /** A name handed out against the registry of a diagram's blocks differs
      from the name of every registered block in it. */
  lemma UniqueNameIsUnused(deviceTypes: set<string>, blocks: seq<Block>, name: string)
    ensures var r := GetUniqueName(UpdateNameHash(deviceTypes, blocks), name);
            forall i :: 0 <= i < |blocks| && Registered(deviceTypes, blocks[i].blockType) ==> blocks[i].name != r
  {
    var h := UpdateNameHash(deviceTypes, blocks);
    var r := GetUniqueName(h, name);
    forall i | 0 <= i < |blocks| && Registered(deviceTypes, blocks[i].blockType) ensures blocks[i].name != r {
      assert NameInUse(deviceTypes, blocks, blocks[i].name);
    }
  }
}

=== FILE: params.dfy ===
/** The numeric branch of updateParamFromEntryField: the text of a
    parameter's entry field is stripped to digits and dots, parsed with
    JavaScript's parseFloat, and stored in the parameter, with the default as
    fallback. */
module Params {
  import opened Wrappers
  import opened Decimal

  predicate NumericChar(c: char) {
    IsDigit(c) || c == '.'
  }

  predicate AllNumeric(s: string) {
    forall i :: 0 <= i < |s| ==> NumericChar(s[i])
  }

  /** The replace of /[^0-9.]/g by '': every other character is dropped,
      the kept ones stay in order. */
  function KeepNumeric(s: string): (r: string)
    ensures AllNumeric(r) && |r| <= |s|
    ensures AllNumeric(s) ==> r == s
    decreases |s|
  {
    if s == [] then []
    else (if NumericChar(s[0]) then [s[0]] else []) + KeepNumeric(s[1..])
  }

  /** Each digit or dot is kept as often as it occurs; nothing else is. */
  lemma {:induction false} KeepNumericCounts(s: string)
    ensures forall c :: multiset(KeepNumeric(s))[c] == if NumericChar(c) then multiset(s)[c] else 0
    decreases |s|
  {
    if s != [] {
      KeepNumericCounts(s[1..]);
      assert s == [s[0]] + s[1..];
    }
  }

  /** Stripping distributes over concatenation, so the kept characters keep
      their order. */
  lemma {:induction false} KeepNumericAppend(a: string, b: string)
    ensures KeepNumeric(a + b) == KeepNumeric(a) + KeepNumeric(b)
    decreases |a|
  {
    if a != [] {
      assert (a + b)[0] == a[0];
      assert (a + b)[1..] == a[1..] + b;
      KeepNumericAppend(a[1..], b);
    } else {
      assert a + b == b;
    }
  }

  /** The longest run of digits at the start of s. */
  function LeadingDigits(s: string): (r: string)
    ensures |r| <= |s| && r == s[..|r|] && AllDigits(r)
    ensures |r| < |s| ==> !IsDigit(s[|r|])
    decreases |s|
  {
    if s != [] && IsDigit(s[0]) then [s[0]] + LeadingDigits(s[1..]) else []
  }

  function Pow10(n: nat): (p: nat)
    ensures p >= 1
  {
    if n == 0 then 1 else 10 * Pow10(n - 1)
  }

  /** parseFloat on text of digits and dots: the digits up to the first dot,
      and after it the digits up to the next dot, if any. None is NaN. The
      result is the exact decimal value; the rounding to a double is not
      modelled. */
  function ParseFloat(s: string): (r: Option<real>)
    requires AllNumeric(s)
    ensures r.None? <==> !(s != [] && IsDigit(s[0])) && !(|s| >= 2 && s[0] == '.' && IsDigit(s[1]))
    ensures r.Some? ==> r.value >= 0.0
  {
    var whole := LeadingDigits(s);
    var rest := s[|whole|..];
    var frac := if rest != [] && rest[0] == '.' then LeadingDigits(rest[1..]) else [];
    if whole == [] && frac == [] then None else Some(DecimalValue(whole, frac))
  }

  /** The value of the decimal numeral whole.frac. */
  function DecimalValue(whole: string, frac: string): (v: real)
    requires AllDigits(whole) && AllDigits(frac)
    ensures v >= 0.0
  {
    ParseNat(whole) as real + ParseNat(frac) as real / Pow10(|frac|) as real
  }

  lemma LeadingDigitsOfDigits(a: string, b: string)
    requires AllDigits(a) && (b != [] ==> !IsDigit(b[0]))
    ensures LeadingDigits(a + b) == a
    decreases |a|
  {
    if a != [] {
      assert (a + b)[1..] == a[1..] + b;
      LeadingDigitsOfDigits(a[1..], b);
    }
  }

  /** The decimal text of a whole number parses back to it. */
  lemma ParseFloatOfNat(n: nat)
    ensures AllNumeric(NatToString(n)) && ParseFloat(NatToString(n)) == Some(n as real)
  {
    var s := NatToString(n);
    LeadingDigitsOfDigits(s, []);
    assert s + [] == s;
    ParseNatToString(n);
  }

  /** Digits, a dot and digits parse to their decimal value, and anything
      from a second dot on is ignored. */
  lemma ParseFloatOfDecimal(a: string, b: string, tail: string)
    requires AllDigits(a) && AllDigits(b) && AllNumeric(tail) && (a != [] || b != [])
    requires tail != [] ==> tail[0] == '.'
    ensures var s := a + "." + b + tail;
            && AllNumeric(s)
            && ParseFloat(s) == Some(DecimalValue(a, b))
  {
    var bt := b + tail;
    var rest := "." + bt;
    var s := a + rest;
    assert a + "." + b + tail == s;
    AllNumericConcat(b, tail);
    AllNumericConcat(".", bt);
    AllNumericConcat(a, rest);
    assert rest[1..] == bt;
    LeadingDigitsOfDigits(b, tail);
    ParseFloatAfterWhole(s, a, rest, b);
  }

  /** Once the leading digits are known, parseFloat reads the fraction from
      what follows the dot. */
  lemma ParseFloatAfterWhole(s: string, a: string, rest: string, frac: string)
    requires AllNumeric(s) && AllDigits(a) && s == a + rest && rest != [] && rest[0] == '.'
    requires frac == LeadingDigits(rest[1..])
    ensures ParseFloat(s) == if a == [] && frac == [] then None else Some(DecimalValue(a, frac))
  {
    LeadingDigitsOfDigits(a, rest);
    assert s[|a|..] == rest;
  }

  lemma AllNumericConcat(a: string, b: string)
    requires AllNumeric(a) && AllNumeric(b)
    ensures AllNumeric(a + b)
  {
    forall i | 0 <= i < |a + b| ensures NumericChar((a + b)[i]) {
      if i < |a| {
        assert (a + b)[i] == a[i];
      } else {
        assert (a + b)[i] == b[i - |a|];
      }
    }
  }

  /** What the entry field shows afterwards: the stripped text, or the
      parameter's default. */
  datatype FieldText = Typed(text: string) | ShowsDefault

  datatype NumericEntry = NumericEntry(field: FieldText, value: real)

  /** One edit of a numeric parameter's field holding `entered`, for a
      parameter holding `value` with default `default`; `focusedOut` is true
      when the field lost focus. */
  function UpdateNumericParam(entered: string, value: real, default: real, focusedOut: bool): (r: NumericEntry)
    ensures var t := KeepNumeric(entered);
            && (t == [] ==> r.value == value && r.field == (if focusedOut then ShowsDefault else Typed([])))
            && (t != [] && ParseFloat(t).None? ==> r == NumericEntry(ShowsDefault, default))
            && (ParseFloat(t).Some? ==> r == NumericEntry(Typed(t), ParseFloat(t).value))
  {
    var t := KeepNumeric(entered);
    if t != [] then
      match ParseFloat(t)
      case None => NumericEntry(ShowsDefault, default)
      case Some(v) => NumericEntry(Typed(t), v)
    else if focusedOut then NumericEntry(ShowsDefault, value)
    else NumericEntry(Typed([]), value)
  }

  /** Typing a whole number sets the parameter to it, whatever else was typed
      around it as long as that is neither digits nor dots. */
  lemma WholeNumberEntry(junk1: string, n: nat, junk2: string, value: real, default: real, focusedOut: bool)
    requires forall i :: 0 <= i < |junk1| ==> !NumericChar(junk1[i])
    requires forall i :: 0 <= i < |junk2| ==> !NumericChar(junk2[i])
    ensures UpdateNumericParam(junk1 + NatToString(n) + junk2, value, default, focusedOut) ==
              NumericEntry(Typed(NatToString(n)), n as real)
  {
    var digits := NatToString(n);
    KeepNumericAppend(junk1 + digits, junk2);
    KeepNumericAppend(junk1, digits);
    NoNumericStripsAway(junk1);
    NoNumericStripsAway(junk2);
    assert KeepNumeric(junk1 + digits + junk2) == digits;
    ParseFloatOfNat(n);
  }

  lemma {:induction false} NoNumericStripsAway(s: string)
    requires forall i :: 0 <= i < |s| ==> !NumericChar(s[i])
    ensures KeepNumeric(s) == []
    decreases |s|
  {
    if s != [] {
      NoNumericStripsAway(s[1..]);
    }
  }

  /** Re-entering what the field shows after an edit changes nothing. */
  lemma ReentryIsStable(entered: string, value: real, default: real, focusedOut: bool)
    requires UpdateNumericParam(entered, value, default, focusedOut).field.Typed?
    ensures var r := UpdateNumericParam(entered, value, default, focusedOut);
            UpdateNumericParam(r.field.text, r.value, default, focusedOut) == r
  {
  }
}

=== FILE: sensors.dfy ===
/** handleSensorData: a push of sensor readings updates the blocks the name
    registry points at, then clears every device block no reading named. */
module Sensors {
  import opened Wrappers
  import opened Graph
  import opened Names

  /** One entry of the pushed data: a sensor name and its value (None for
      null). */
  datatype Reading = Reading(name: string, value: Option<real>)

  /** The new diagram and the names that were received
      (receivedSensorData's keys). */
  datatype SensorUpdate = SensorUpdate(diagram: Diagram, received: set<string>)

  /** Reading k goes to block i through the registry. */
  predicate Targets(hash: map<string, nat>, readings: seq<Reading>, k: int, i: int) {
    0 <= k < |readings| && readings[k].name in hash && hash[readings[k].name] == i
  }

  /** Reading k is the last reading that goes to block i. */
  predicate LastFor(hash: map<string, nat>, readings: seq<Reading>, k: int, i: int) {
    Targets(hash, readings, k, i) && forall j :: k < j < |readings| ==> !Targets(hash, readings, j, i)
  }

  predicate Targeted(hash: map<string, nat>, readings: seq<Reading>, i: int) {
    exists k :: 0 <= k < |readings| && Targets(hash, readings, k, i)
  }

  /** The first loop: every reading whose name the registry knows sets the
      value of that block; a name the registry does not know is skipped, and
      so is an index past the end of the diagram. */
  function ApplyReadings(d: Diagram, hash: map<string, nat>, readings: seq<Reading>): (r: Diagram)
    ensures |r.blocks| == |d.blocks|
    ensures forall i :: 0 <= i < |d.blocks| ==> r.blocks[i] == d.blocks[i].(value := r.blocks[i].value)
    ensures forall i :: 0 <= i < |d.blocks| && !Targeted(hash, readings, i) ==> r.blocks[i] == d.blocks[i]
    ensures forall i, k :: 0 <= i < |d.blocks| && LastFor(hash, readings, k, i) ==>
              r.blocks[i].value == readings[k].value
    decreases |readings|
  {
    if readings == [] then d
    else
      var n := |readings| - 1;
      var prev := ApplyReadings(d, hash, readings[..n]);
      var rd := readings[n];
      TargetsSnoc(hash, readings);
      if rd.name in hash && hash[rd.name] < |prev.blocks| then
        var i := hash[rd.name];
        prev.(blocks := prev.blocks[i := prev.blocks[i].(value := rd.value)])
      else prev
  }

  /** How the targeting facts of a reading sequence relate to its prefix. */
  lemma TargetsSnoc(hash: map<string, nat>, readings: seq<Reading>)
    requires readings != []
    ensures var n := |readings| - 1;
            && (forall k, i :: k < n ==> (Targets(hash, readings, k, i) <==> Targets(hash, readings[..n], k, i)))
            && (forall i :: Targeted(hash, readings, i) <==>
                  Targeted(hash, readings[..n], i) || Targets(hash, readings, n, i))
            && (forall k, i :: LastFor(hash, readings, k, i) ==>
                  k == n || (LastFor(hash, readings[..n], k, i) && !Targets(hash, readings, n, i)))
  {
    var n := |readings| - 1;
    forall k, i | k < n ensures Targets(hash, readings, k, i) <==> Targets(hash, readings[..n], k, i) {
      if 0 <= k {
        assert readings[..n][k] == readings[k];
      }
    }
    forall i | Targeted(hash, readings, i) ensures Targeted(hash, readings[..n], i) || Targets(hash, readings, n, i) {
      var k :| 0 <= k < |readings| && Targets(hash, readings, k, i);
      if k < n {
        assert Targets(hash, readings[..n], k, i);
      }
    }
    forall i | Targeted(hash, readings[..n], i) ensures Targeted(hash, readings, i) {
      var k :| 0 <= k < n && Targets(hash, readings[..n], k, i);
      assert readings[..n][k] == readings[k];
    }
  }

  /** The second loop: a device block (timers excluded) whose name no reading
      carried gets the value null. */
  function NullAbsent(deviceTypes: set<string>, d: Diagram, received: set<string>): (r: Diagram)
    ensures |r.blocks| == |d.blocks|
    ensures forall i :: 0 <= i < |d.blocks| ==>
              r.blocks[i] ==
                if d.blocks[i].blockType in deviceTypes && d.blocks[i].name !in received
                then d.blocks[i].(value := None) else d.blocks[i]
  {
    Diagram(seq(|d.blocks|, i requires 0 <= i < |d.blocks| =>
      var b := d.blocks[i];
      if b.blockType in deviceTypes && b.name !in received then b.(value := None) else b))
  }

  function ReceivedNames(readings: seq<Reading>): (s: set<string>)
    ensures forall x :: x in s <==> exists k :: 0 <= k < |readings| && readings[k].name == x
  {
    set k | 0 <= k < |readings| :: readings[k].name
  }

  /** handleSensorData. `data` is params.data: None when the message has no
      data, and then nothing changes. The recomputation of the other blocks
      (diagram.update) that follows is not part of this model. */
  function HandleSensorData(deviceTypes: set<string>, d: Diagram, hash: map<string, nat>,
                            data: Option<seq<Reading>>): (r: Option<SensorUpdate>)
    ensures r.None? <==> data.None?
    ensures r.Some? ==>
              && r.value.received == ReceivedNames(data.value)
              && |r.value.diagram.blocks| == |d.blocks|
              && forall i :: 0 <= i < |d.blocks| ==>
                   var b := r.value.diagram.blocks[i];
                   && b == d.blocks[i].(value := b.value)
                   && (d.blocks[i].blockType in deviceTypes && d.blocks[i].name !in r.value.received ==> b.value == None)
  {
    match data
    case None => None
    case Some(readings) =>
      var received := ReceivedNames(readings);
      Some(SensorUpdate(NullAbsent(deviceTypes, ApplyReadings(d, hash, readings), received), received))
  }

  /** A push with an empty list clears every device block and leaves every
      other block as it was. */
  lemma EmptyPushClearsDevices(deviceTypes: set<string>, d: Diagram, hash: map<string, nat>)
    ensures var r := HandleSensorData(deviceTypes, d, hash, Some([]));
            && r.Some? && r.value.received == {}
            && forall i :: 0 <= i < |d.blocks| ==>
                 r.value.diagram.blocks[i] ==
                   if d.blocks[i].blockType in deviceTypes then d.blocks[i].(value := None) else d.blocks[i]
  {
  }

  /** With the registry built from the diagram itself, the last registered
      block of a name takes the value of the last reading with that name. */
  lemma ReadingsReachLastNamed(deviceTypes: set<string>, d: Diagram, readings: seq<Reading>, i: nat, k: nat)
    requires i < |d.blocks| && k < |readings|
    requires LastNamed(deviceTypes, d.blocks, readings[k].name, i)
    requires forall j :: k < j < |readings| ==> readings[j].name != readings[k].name
    ensures var r := HandleSensorData(deviceTypes, d, UpdateNameHash(deviceTypes, d.blocks), Some(readings));
            r.value.diagram.blocks[i].value == readings[k].value
  {
    var hash := UpdateNameHash(deviceTypes, d.blocks);
    var name := readings[k].name;
    assert NameInUse(deviceTypes, d.blocks, name);
    LastNamedUnique(deviceTypes, d.blocks, name, i, hash[name]);
    forall j | k < j < |readings| ensures !Targets(hash, readings, j, i) {
      if readings[j].name in hash {
        assert LastNamed(deviceTypes, d.blocks, readings[j].name, hash[readings[j].name]);
      }
    }
    assert LastFor(hash, readings, k, i);
    assert name in ReceivedNames(readings);
  }

  /** With the registry built from the diagram itself, a registered block
      that shares its name with a later registered block is shadowed: the
      readings never reach it, and once its name is received it is not
      cleared either, so it keeps its old value. */
  lemma ShadowedBlockKeepsValue(deviceTypes: set<string>, d: Diagram, readings: seq<Reading>, i: nat)
    requires i < |d.blocks| && Registered(deviceTypes, d.blocks[i].blockType)
    requires !LastNamed(deviceTypes, d.blocks, d.blocks[i].name, i)
    requires d.blocks[i].name in ReceivedNames(readings)
    ensures var r := HandleSensorData(deviceTypes, d, UpdateNameHash(deviceTypes, d.blocks), Some(readings));
            r.value.diagram.blocks[i] == d.blocks[i]
  {
    var hash := UpdateNameHash(deviceTypes, d.blocks);
    forall k | 0 <= k < |readings| ensures !Targets(hash, readings, k, i) {
      if readings[k].name in hash {
        assert LastNamed(deviceTypes, d.blocks, readings[k].name, hash[readings[k].name]);
      }
    }
  }

  /** A name has at most one last block. */
  lemma LastNamedUnique(deviceTypes: set<string>, blocks: seq<Block>, name: string, i: nat, j: nat)
    requires LastNamed(deviceTypes, blocks, name, i) && LastNamed(deviceTypes, blocks, name, j)
    ensures i == j
  {
  }
}

=== FILE: storageproofs.dfy ===
/** The data-storage invariant is kept by the two edits the editor makes to
    the block's connections: connecting its free pin, and clicking away one of
    its connections, each followed by updateDataStoragePins. */
module StorageProofs {
  import opened Wrappers
  import opened Graph
  import opened DataStorage

  /** No pin of `pins` takes its data from block s. */
  predicate NoSourceIn(pins: seq<Pin>, s: nat) {
    forall k :: 0 <= k < |pins| && pins[k].source.Some? ==> pins[k].source.value.block != s
  }

  /** Only block s differs between the two diagrams. */
  predicate SameBut(d: Diagram, d': Diagram, s: nat) {
    |d'.blocks| == |d.blocks| && forall j :: 0 <= j < |d.blocks| && j != s ==> d'.blocks[j] == d.blocks[j]
  }

  lemma SourceIdsFrame(d: Diagram, d': Diagram, pins: seq<Pin>, s: nat)
    requires SameBut(d, d', s) && NoSourceIn(pins, s)
    ensures SourceIds(d', pins) == SourceIds(d, pins)
  {
    forall x | x in SourceIds(d', pins) ensures x in SourceIds(d, pins) {
      var k :| 0 <= k < |pins| && Feeds(d', pins[k]) && SourceBlock(d', pins[k]).id == x;
      assert SourceBlock(d, pins[k]) == SourceBlock(d', pins[k]);
    }
    forall x | x in SourceIds(d, pins) ensures x in SourceIds(d', pins) {
      var k :| 0 <= k < |pins| && Feeds(d, pins[k]) && SourceBlock(d, pins[k]).id == x;
      assert SourceBlock(d, pins[k]) == SourceBlock(d', pins[k]);
    }
  }

  /** In a well-linked diagram nothing reads from a block whose pins are all inputs. */
  lemma NothingReadsFromInputs(d: Diagram, s: nat)
    requires WellLinked(d) && s < |d.blocks| && AllInputs(d.blocks[s].pins)
    ensures NoSourceIn(d.blocks[s].pins, s)
  {
    var pins := d.blocks[s].pins;
    forall k | 0 <= k < |pins| && pins[k].source.Some? ensures pins[k].source.value.block != s {
      assert PinLinked(d, pins[k]);
    }
  }

  /** The pass skips the blocks before the only data-storage block. */
  lemma {:induction false} SkipToStorage(d: Diagram, i: nat, s: nat)
    requires Resolves(d) && i <= s < |d.blocks|
    requires forall j :: i <= j < s ==> !IsDataStorage(d.blocks[j])
    ensures ReconcileFrom(d, i, false) == ReconcileFrom(d, s, false)
    decreases s - i
  {
    if i < s {
      SkipToStorage(d, i + 1, s);
    }
  }

  /** When block s is the only data-storage block and it is unbalanced, the
      pass reconciles exactly that block. */
  lemma PassReconcilesOnly(d: Diagram, s: nat)
    requires Resolves(d) && OnlyDataStorage(d, s) && !Balanced(d.blocks[s])
    ensures ReconcileBlock(d, s, false).Some? ==>
              UpdateDataStoragePins(d) == Some(ReplaceBlock(d, s, ReconcileBlock(d, s, false).value))
    ensures ReconcileBlock(d, s, false).None? ==> UpdateDataStoragePins(d).None?
  {
    SkipToStorage(d, 0, s);
    match ReconcileBlock(d, s, false)
    case None =>
    case Some(b) =>
      var d' := ReplaceBlock(d, s, b);
      assert ReconcileFrom(d, s, false) == ReconcileFrom(d', s + 1, d.blocks[s].sequenceNames.Some?);
      NoStorageFrom(d', s + 1, d.blocks[s].sequenceNames.Some?);
  }

  /** The removing branch throws when it leaves fewer pins than it labels:
      a storage block counting 3 inputs with one fed pin and one free pin
      loses the free pin, and labelling then reads the missing second pin. */
  lemma OverCountedBlockThrows()
    ensures var sensor := Block(1, "temperature", "temperature", [Pin(false, None)], 0, None, None, View(0, 0, 100, 100));
            var store := Block(2, DataStorageType, DataStorageType,
                               [Pin(true, Some(PinRef(0, 0))), Pin(true, None)], 3, None, None, View(300, 0, 100, 178));
            UpdateDataStoragePins(Diagram([sensor, store])).None?
  {
    var sensor := Block(1, "temperature", "temperature", [Pin(false, None)], 0, None, None, View(0, 0, 100, 100));
    var store := Block(2, DataStorageType, DataStorageType,
                       [Pin(true, Some(PinRef(0, 0))), Pin(true, None)], 3, None, None, View(300, 0, 100, 178));
    var d := Diagram([sensor, store]);
    assert ConnectedCount(store.pins) == 1 by {
      assert store.pins[..1] == [Pin(true, Some(PinRef(0, 0)))];
      assert store.pins[..1][..0] == [];
    }
    PassReconcilesOnly(d, 1);
  }

  /** A storage block without sequence_names throws once a fed pin must be
      labelled: the key list the labelling loop scans was never filled. */
  lemma UnlabelledBlockThrows()
    ensures var sensor := Block(0, "temperature", "temperature", [Pin(false, None)], 0, None, None, View(0, 0, 100, 100));
            var store := Block(1, DataStorageType, DataStorageType,
                               [Pin(true, Some(PinRef(0, 0)))], 1, None, None, View(300, 0, 100, 142));
            UpdateDataStoragePins(Diagram([sensor, store])).None?
  {
    var sensor := Block(0, "temperature", "temperature", [Pin(false, None)], 0, None, None, View(0, 0, 100, 100));
    var store := Block(1, DataStorageType, DataStorageType,
                       [Pin(true, Some(PinRef(0, 0)))], 1, None, None, View(300, 0, 100, 142));
    var d := Diagram([sensor, store]);
    assert ConnectedCount(store.pins) == 1 by {
      assert store.pins[..0] == [];
    }
    assert FedWithin(store.pins + [Pin(true, None)], 2) by {
      assert (store.pins + [Pin(true, None)])[0].source.Some?;
    }
    PassReconcilesOnly(d, 1);
  }

  lemma LabelsDistinctInsert(m: map<nat, string>, id: nat, l: string)
    requires LabelsDistinct(m) && l !in m.Values
    ensures LabelsDistinct(m[id := l])
  {
    var m2 := m[id := l];
    forall x, y | x in m2 && y in m2 && x != y ensures m2[x] != m2[y] {
      if x == id {
        assert m2[y] == m[y] && m[y] in m.Values;
      } else if y == id {
        assert m2[x] == m[x] && m[x] in m.Values;
      }
    }
  }

  /** Connecting the last (free) pin and appending a free pin adds the new
      source's id to the source ids. */
  lemma SourceIdsConnectLast(d: Diagram, pins: seq<Pin>, p: Pin, pins2: seq<Pin>)
    requires ConnectedPrefix(pins) && Feeds(d, p)
    requires pins2 == pins[|pins| - 1 := p] + [Pin(true, None)]
    ensures SourceIds(d, pins2) == SourceIds(d, pins) + {SourceBlock(d, p).id}
  {
    var n := |pins|;
    var id := SourceBlock(d, p).id;
    forall x | x in SourceIds(d, pins2) ensures x in SourceIds(d, pins) + {id} {
      var k :| 0 <= k < |pins2| && Feeds(d, pins2[k]) && SourceBlock(d, pins2[k]).id == x;
      if k < n - 1 {
        assert pins2[k] == pins[k];
      }
    }
    forall x | x in SourceIds(d, pins) + {id} ensures x in SourceIds(d, pins2) {
      if x == id {
        assert Feeds(d, pins2[n - 1]) && SourceBlock(d, pins2[n - 1]).id == id;
      } else {
        var k :| 0 <= k < |pins| && Feeds(d, pins[k]) && SourceBlock(d, pins[k]).id == x;
        assert k < n - 1;
        assert pins2[k] == pins[k];
      }
    }
  }

  /** Freeing connected pin k and dropping it leaves a block in shape whose
      source ids are the old ones, except possibly pin k's. */
  lemma DropPin(d: Diagram, pins: seq<Pin>, k: nat, pins2: seq<Pin>)
    requires ConnectedPrefix(pins) && AllInputs(pins) && k < |pins| - 1 && Feeds(d, pins[k])
    requires pins2 == pins[k := Pin(true, None)][..k] + pins[k := Pin(true, None)][k + 1..]
    ensures |pins2| == |pins| - 1 && ConnectedPrefix(pins2) && AllInputs(pins2)
    ensures forall p :: p in pins2 ==> p in pins
    ensures SourceIds(d, pins) == SourceIds(d, pins2) + {SourceBlock(d, pins[k]).id}
  {
    var n := |pins|;
    var gone := SourceBlock(d, pins[k]).id;
    assert forall j :: 0 <= j < k ==> pins2[j] == pins[j];
    assert forall j :: k <= j < n - 1 ==> pins2[j] == pins[j + 1];
    forall q | q in pins2 ensures q in pins {
      var j :| 0 <= j < |pins2| && pins2[j] == q;
      if j < k { assert q == pins[j]; } else { assert q == pins[j + 1]; }
    }
    forall x | x in SourceIds(d, pins) ensures x in SourceIds(d, pins2) + {gone} {
      var j :| 0 <= j < |pins| && Feeds(d, pins[j]) && SourceBlock(d, pins[j]).id == x;
      if j < k {
        assert pins2[j] == pins[j];
      } else if j > k {
        assert pins2[j - 1] == pins[j];
      }
    }
    forall x | x in SourceIds(d, pins2) + {gone} ensures x in SourceIds(d, pins) {
      if x != gone {
        var j :| 0 <= j < |pins2| && Feeds(d, pins2[j]) && SourceBlock(d, pins2[j]).id == x;
        if j < k {
          assert pins2[j] == pins[j];
        } else {
          assert pins2[j] == pins[j + 1];
        }
      }
    }
  }

  /** When only `gone` can be stale, removing the stale label removes exactly it. */
  lemma StaleLabelIsGone(m: map<nat, string>, live: set<nat>, gone: nat)
    requires m.Keys == live + {gone}
    ensures RemoveStaleLabel(m, live) == (if gone in live then m else m - {gone})
    ensures RemoveStaleLabel(m, live).Keys == live
  {
    var m2 := RemoveStaleLabel(m, live);
    if gone !in live {
      var x :| x in m && x !in live && m2 == m - {x}
        && forall y :: y in m && y !in live ==> x <= y;
      assert x == gone;
    }
  }

  /** The first half of a connect: the free pin gets its source, the block is
      then one input short. */
  lemma ConnectLastPin(d: Diagram, s: nat, src: PinRef)
    requires WellLinked(d) && StorageInvariant(d, s)
    requires ValidRef(d, src) && !PinAt(d, src).isInput
    ensures var n := |d.blocks[s].pins|;
            var d1 := SetSource(d, PinRef(s, n - 1), Some(src));
            && WellLinked(d1) && Resolves(d1)
            && d1.blocks[s].pins == d.blocks[s].pins[n - 1 := Pin(true, Some(src))]
            && ConnectedCount(d1.blocks[s].pins) == n
            && !Balanced(d1.blocks[s])
            && SameBut(d, d1, s)
            && src.block != s
  {
    var pins := d.blocks[s].pins;
    var n := |pins|;
    SetSourceKeepsWellLinked(d, PinRef(s, n - 1), Some(src));
    var d1 := SetSource(d, PinRef(s, n - 1), Some(src));
    WellLinkedResolves(d1);
    assert d1.blocks[s].pins == pins[n - 1 := Pin(true, Some(src))];
    ConnectedCountOfPrefix(pins, n - 1);
    ConnectedCountUpdate(pins, n - 1, Pin(true, Some(src)));
  }

  /** The reconcile pass after a connect to the free pin, in plain terms. */
  lemma ConnectPass(d: Diagram, s: nat, src: PinRef)
    requires WellLinked(d) && OnlyDataStorage(d, s) && StorageInvariant(d, s)
    requires ValidRef(d, src) && !PinAt(d, src).isInput
    ensures var pins := d.blocks[s].pins;
            var n := |pins|;
            var d1 := SetSource(d, PinRef(s, n - 1), Some(src));
            var m := d.blocks[s].sequenceNames.value;
            var up := d.blocks[src.block];
            && Resolves(d1)
            && src.block != s
            && UpdateDataStoragePins(d1).Some?
            && var d2 := UpdateDataStoragePins(d1).value;
               && SameBut(d, d2, s)
               && WellLinked(d2)
               && d2.blocks[s].pins == pins[n - 1 := Pin(true, Some(src))] + [Pin(true, None)]
               && d2.blocks[s].inputCount == n + 1
               && d2.blocks[s].blockType == DataStorageType
               && d2.blocks[s].sequenceNames == Some(m[up.id := FreshLabel(m.Values, up.name)])
  {
    var pins := d.blocks[s].pins;
    var n := |pins|;
    ConnectLastPin(d, s, src);
    var d1 := SetSource(d, PinRef(s, n - 1), Some(src));
    var pins1 := d1.blocks[s].pins;
    PassReconcilesOnly(d1, s);
    var b2 := ReconcileBlock(d1, s, false).value;
    var d2 := ReplaceBlock(d1, s, b2);
    assert b2.pins == pins1 + [Pin(true, None)];
    assert SourceBlock(d1, pins1[n - 1]) == d.blocks[src.block];
    WellLinkedAfterReconcile(d1, d2, s);
  }

  /** Connecting an output pin to the free pin of the data-storage block and
      reconciling: the block gains one pin, stays in shape, and the source
      block's id gets a label that is fresh among the existing labels. */
  lemma ConnectFreePinKeepsInvariant(d: Diagram, s: nat, src: PinRef)
    requires WellLinked(d) && OnlyDataStorage(d, s) && StorageInvariant(d, s)
    requires ValidRef(d, src) && !PinAt(d, src).isInput
    ensures var n := |d.blocks[s].pins|;
            var d1 := SetSource(d, PinRef(s, n - 1), Some(src));
            var m := d.blocks[s].sequenceNames.value;
            var up := d.blocks[src.block];
            && Resolves(d1)
            && UpdateDataStoragePins(d1).Some?
            && var d2 := UpdateDataStoragePins(d1).value;
               && StorageInvariant(d2, s)
               && OnlyDataStorage(d2, s)
               && WellLinked(d2)
               && |d2.blocks[s].pins| == n + 1
               && d2.blocks[s].sequenceNames == Some(m[up.id := FreshLabel(m.Values, up.name)])
               && SameBut(d, d2, s)
  {
    var pins := d.blocks[s].pins;
    var n := |pins|;
    ConnectPass(d, s, src);
    var d1 := SetSource(d, PinRef(s, n - 1), Some(src));
    var d2 := UpdateDataStoragePins(d1).value;
    NothingReadsFromInputs(d, s);
    ConnectShape(d, d2, s, src);
    OnlyDataStorageFrame(d, d2, s);
  }

  /** The label half of a connect, stated without the pass itself. */
  lemma ConnectShape(d: Diagram, d2: Diagram, s: nat, src: PinRef)
    requires StorageInvariant(d, s) && NoSourceIn(d.blocks[s].pins, s)
    requires src.block < |d.blocks| && src.block != s
    requires var pins := d.blocks[s].pins;
             var n := |pins|;
             var m := d.blocks[s].sequenceNames.value;
             var up := d.blocks[src.block];
             && SameBut(d, d2, s)
             && d2.blocks[s].pins == pins[n - 1 := Pin(true, Some(src))] + [Pin(true, None)]
             && d2.blocks[s].inputCount == n + 1
             && d2.blocks[s].blockType == DataStorageType
             && d2.blocks[s].sequenceNames == Some(m[up.id := FreshLabel(m.Values, up.name)])
    ensures StorageInvariant(d2, s)
  {
    var pins := d.blocks[s].pins;
    var m := d.blocks[s].sequenceNames.value;
    var up := d.blocks[src.block];
    var pins2 := d2.blocks[s].pins;
    var newLabel := FreshLabel(m.Values, up.name);
    assert NoSourceIn(pins2, s);
    SourceIdsFrame(d, d2, pins2, s);
    SourceIdsFrame(d, d2, pins, s);
    SourceIdsConnectLast(d, pins, Pin(true, Some(src)), pins2);
    LabelsDistinctInsert(m, up.id, newLabel);
    assert ConnectedPrefix(pins2);
  }

  lemma OnlyDataStorageFrame(d: Diagram, d2: Diagram, s: nat)
    requires OnlyDataStorage(d, s) && SameBut(d, d2, s) && IsDataStorage(d2.blocks[s])
    ensures OnlyDataStorage(d2, s)
  {
    forall j | 0 <= j < |d2.blocks| && j != s ensures !IsDataStorage(d2.blocks[j]) {
      assert d2.blocks[j] == d.blocks[j];
    }
  }

  /** Changing only the pins of an all-input block, keeping linked pins, keeps
      the diagram well linked. */
  lemma WellLinkedAfterReconcile(d: Diagram, d': Diagram, s: nat)
    requires WellLinked(d) && SameBut(d, d', s) && s < |d.blocks|
    requires AllInputs(d.blocks[s].pins) && AllInputs(d'.blocks[s].pins)
    requires forall p :: p in d'.blocks[s].pins ==> p in d.blocks[s].pins || p.source.None?
    ensures WellLinked(d')
  {
    forall bi, k | 0 <= bi < |d'.blocks| && 0 <= k < |d'.blocks[bi].pins|
      ensures PinLinked(d', d'.blocks[bi].pins[k])
    {
      var p := d'.blocks[bi].pins[k];
      if p.source.Some? {
        var q := p.source.value;
        if bi == s {
          var k0 :| 0 <= k0 < |d.blocks[s].pins| && d.blocks[s].pins[k0] == p;
          assert PinLinked(d, d.blocks[s].pins[k0]);
        } else {
          assert PinLinked(d, d.blocks[bi].pins[k]);
        }
        assert q.block != s;
        assert PinAt(d', q) == PinAt(d, q);
      }
    }
  }

  /** The first half of a disconnect: pin k loses its source; the block then
      has one input too many and its first free pin is pin k. */
  lemma FreeConnectedPin(d: Diagram, s: nat, k: nat)
    requires WellLinked(d) && StorageInvariant(d, s)
    requires k < |d.blocks[s].pins| - 1
    ensures var n := |d.blocks[s].pins|;
            var d1 := SetSource(d, PinRef(s, k), None);
            var pins1 := d1.blocks[s].pins;
            && WellLinked(d1) && Resolves(d1)
            && pins1 == d.blocks[s].pins[k := Pin(true, None)]
            && ConnectedCount(pins1) == n - 2
            && d1.blocks[s].inputCount > ConnectedCount(pins1) + 1
            && RemoveFirstFree(pins1) == pins1[..k] + pins1[k + 1..]
            && SameBut(d, d1, s)
  {
    var pins := d.blocks[s].pins;
    var n := |pins|;
    SetSourceKeepsWellLinked(d, PinRef(s, k), None);
    var d1 := SetSource(d, PinRef(s, k), None);
    WellLinkedResolves(d1);
    var pins1 := d1.blocks[s].pins;
    assert pins1 == pins[k := Pin(true, None)];
    ConnectedCountOfPrefix(pins, n - 1);
    ConnectedCountUpdate(pins, k, Pin(true, None));
    var f := FirstFreeIndex(pins1);
    assert f == k;
  }

  /** The reconciled block after freeing pin k: pin k is gone, one input
      fewer is declared, and the stale label removal runs on the rest. */
  lemma ReconcileFreedPin(d1: Diagram, s: nat, k: nat, m: map<nat, string>)
    requires Resolves(d1) && s < |d1.blocks| && IsDataStorage(d1.blocks[s])
    requires d1.blocks[s].sequenceNames == Some(m)
    requires k < |d1.blocks[s].pins| && |d1.blocks[s].pins| >= 2
    requires ConnectedCount(d1.blocks[s].pins) == |d1.blocks[s].pins| - 2
    requires d1.blocks[s].inputCount == |d1.blocks[s].pins|
    requires RemoveFirstFree(d1.blocks[s].pins) == d1.blocks[s].pins[..k] + d1.blocks[s].pins[k + 1..]
    ensures !Balanced(d1.blocks[s]) && ReconcileBlock(d1, s, false).Some?
    ensures var b2 := ReconcileBlock(d1, s, false).value;
            var pins1 := d1.blocks[s].pins;
            && b2.pins == pins1[..k] + pins1[k + 1..]
            && b2.inputCount == |pins1| - 1
            && b2.sequenceNames == Some(RemoveStaleLabel(m, SourceIds(d1, b2.pins)))
            && b2.blockType == d1.blocks[s].blockType
  {
  }

  /** The pass after freeing pin k, in plain terms. */
  lemma DisconnectPass(d: Diagram, s: nat, k: nat)
    requires WellLinked(d) && OnlyDataStorage(d, s) && StorageInvariant(d, s)
    requires k < |d.blocks[s].pins| - 1
    ensures var pins := d.blocks[s].pins;
            var d1 := SetSource(d, PinRef(s, k), None);
            var pins1 := pins[k := Pin(true, None)];
            && WellLinked(d1) && Resolves(d1)
            && d1.blocks[s].pins == pins1
            && SameBut(d, d1, s)
            && UpdateDataStoragePins(d1).Some?
            && var d2 := UpdateDataStoragePins(d1).value;
               && SameBut(d1, d2, s)
               && d2.blocks[s].pins == pins1[..k] + pins1[k + 1..]
               && d2.blocks[s].inputCount == |pins| - 1
               && d2.blocks[s].blockType == DataStorageType
               && d2.blocks[s].sequenceNames ==
                    Some(RemoveStaleLabel(d.blocks[s].sequenceNames.value, SourceIds(d1, d2.blocks[s].pins)))
  {
    FreeConnectedPin(d, s, k);
    var d1 := SetSource(d, PinRef(s, k), None);
    ReconcileFreedPin(d1, s, k, d.blocks[s].sequenceNames.value);
    PassReconcilesOnly(d1, s);
  }

  /** Clicking away connection k of the data-storage block (not its free pin)
      and reconciling: the block loses one pin and stays in shape; its label
      map loses the departed source's label unless another pin still reads
      from that block. */
  lemma DisconnectKeepsInvariant(d: Diagram, s: nat, k: nat)
    requires WellLinked(d) && OnlyDataStorage(d, s) && StorageInvariant(d, s)
    requires k < |d.blocks[s].pins| - 1
    ensures var n := |d.blocks[s].pins|;
            var d1 := SetSource(d, PinRef(s, k), None);
            var m := d.blocks[s].sequenceNames.value;
            && Feeds(d, d.blocks[s].pins[k])
            && var gone := SourceBlock(d, d.blocks[s].pins[k]).id;
            && Resolves(d1)
            && UpdateDataStoragePins(d1).Some?
            && var d2 := UpdateDataStoragePins(d1).value;
               && StorageInvariant(d2, s)
               && OnlyDataStorage(d2, s)
               && WellLinked(d2)
               && |d2.blocks[s].pins| == n - 1
               && d2.blocks[s].sequenceNames ==
                    Some(if gone in SourceIds(d2, d2.blocks[s].pins) then m else m - {gone})
               && SameBut(d, d2, s)
  {
    var pins := d.blocks[s].pins;
    WellLinkedResolves(d);
    assert Feeds(d, pins[k]);
    DisconnectPass(d, s, k);
    var d1 := SetSource(d, PinRef(s, k), None);
    var d2 := UpdateDataStoragePins(d1).value;
    DisconnectFinish(d, d1, d2, s, k);
  }

  /** The disconnect, once the pass has been computed: the invariant and
      the frame facts about its result. */
  lemma DisconnectFinish(d: Diagram, d1: Diagram, d2: Diagram, s: nat, k: nat)
    requires WellLinked(d) && OnlyDataStorage(d, s) && StorageInvariant(d, s)
    requires k < |d.blocks[s].pins| - 1 && Feeds(d, d.blocks[s].pins[k])
    requires var pins := d.blocks[s].pins;
             var pins1 := pins[k := Pin(true, None)];
             && WellLinked(d1)
             && SameBut(d, d1, s)
             && SameBut(d1, d2, s)
             && d1.blocks[s].pins == pins1
             && d2.blocks[s].pins == pins1[..k] + pins1[k + 1..]
             && d2.blocks[s].inputCount == |pins| - 1
             && d2.blocks[s].blockType == DataStorageType
             && d2.blocks[s].sequenceNames ==
                  Some(RemoveStaleLabel(d.blocks[s].sequenceNames.value, SourceIds(d1, d2.blocks[s].pins)))
    ensures var gone := SourceBlock(d, d.blocks[s].pins[k]).id;
            var m := d.blocks[s].sequenceNames.value;
            && StorageInvariant(d2, s)
            && OnlyDataStorage(d2, s)
            && WellLinked(d2)
            && |d2.blocks[s].pins| == |d.blocks[s].pins| - 1
            && d2.blocks[s].sequenceNames ==
                 Some(if gone in SourceIds(d2, d2.blocks[s].pins) then m else m - {gone})
            && SameBut(d, d2, s)
  {
    NothingReadsFromInputs(d, s);
    DisconnectShape(d, d1, d2, s, k);
    assert SameBut(d, d2, s);
    OnlyDataStorageFrame(d, d2, s);
    WellLinkedAfterReconcile(d1, d2, s);
  }

  /** The label half of a disconnect, stated without the pass itself. */
  lemma DisconnectShape(d: Diagram, d1: Diagram, d2: Diagram, s: nat, k: nat)
    requires StorageInvariant(d, s) && NoSourceIn(d.blocks[s].pins, s)
    requires k < |d.blocks[s].pins| - 1 && Feeds(d, d.blocks[s].pins[k])
    requires var pins := d.blocks[s].pins;
             var pins1 := pins[k := Pin(true, None)];
             && SameBut(d, d1, s) && d1.blocks[s].pins == pins1
             && SameBut(d1, d2, s)
             && d2.blocks[s].pins == pins1[..k] + pins1[k + 1..]
             && d2.blocks[s].inputCount == |pins| - 1
             && d2.blocks[s].blockType == DataStorageType
             && d2.blocks[s].sequenceNames ==
                  Some(RemoveStaleLabel(d.blocks[s].sequenceNames.value, SourceIds(d1, d2.blocks[s].pins)))
    ensures var gone := SourceBlock(d, d.blocks[s].pins[k]).id;
            var m := d.blocks[s].sequenceNames.value;
            && StorageInvariant(d2, s)
            && d2.blocks[s].sequenceNames ==
                 Some(if gone in SourceIds(d2, d2.blocks[s].pins) then m else m - {gone})
            && forall p :: p in d2.blocks[s].pins ==> p in d1.blocks[s].pins || p.source.None?
  {
    var pins := d.blocks[s].pins;
    var m := d.blocks[s].sequenceNames.value;
    var gone := SourceBlock(d, pins[k]).id;
    var pins2 := d2.blocks[s].pins;
    DropPin(d, pins, k, pins2);
    assert SameBut(d, d2, s);
    assert NoSourceIn(pins2, s) by {
      forall j | 0 <= j < |pins2| && pins2[j].source.Some? ensures pins2[j].source.value.block != s {
        assert pins2[j] in pins;
      }
    }
    SourceIdsFrame(d, d1, pins2, s);
    SourceIdsFrame(d, d2, pins2, s);
    StaleLabelIsGone(m, SourceIds(d, pins2), gone);
    RemoveAtKeepsMembers(d1.blocks[s].pins, k);
  }

  lemma RemoveAtKeepsMembers(xs: seq<Pin>, k: nat)
    requires k < |xs|
    ensures forall p :: p in xs[..k] + xs[k + 1..] ==> p in xs
  {
    forall p | p in xs[..k] + xs[k + 1..] ensures p in xs {
      var j :| 0 <= j < |xs| - 1 && (xs[..k] + xs[k + 1..])[j] == p;
      if j < k {
        assert p == xs[j];
      } else {
        assert p == xs[j + 1];
      }
    }
  }
}

=== FILE: wrappers.dfy ===
/** Optional values: the editor's JavaScript uses `null` for "no value" and
    for "no connection"; the model uses None. */
module Wrappers {

  datatype Option<+T> = None | Some(value: T)
}
